=== FILE: README.md ===
# Gemini API façade: request shaping and response normalisation

This project models the core rules of a small FastAPI backend and the React frontend in front of it. The backend sends each request to the Gemini SDK and reshapes the reply. The model covers:

- **Image router.** Model selection for generation, editing and composition. The inline-data scans, which keep the last payload. The data URL returned to the caller. The placeholder-versus-error outcomes. The multi-turn image chat with its in-memory session table, modelled as a class whose `Chat` method updates the table in place.
- **Agent router.** Tool-name-to-declaration mapping. Text joining. Tool-name collection, de-duplicated only on the `function_calls` path. The fallback to the requested tools. The default reply text.
- **Function-calling router.** Declarations. The two extraction paths. Argument normalisation. A text that is returned only when no call is.
- **Audio router.** Voice defaulting. The first-match payload scan. Error classification. The placeholder.
- **Embedding router.** The single-embedding precedence chain and its emptiness check. Batch per-item vectors and dimensions.
- **Text router.** The optional generation config. Chat role mapping and filtering.
- **Document router.** MIME selection from the content type and the file-name suffix. Part order.
- **Frontend.** `getBaseURL` with its `/api` suffix rule. The agent page's `toggleTool` and the guard in `handleChat`.

The SDK is replaced by closed datatypes (`Genai.Response`, `Genai.Part`, …). Each endpoint member takes the SDK's reply as an input. For the image, agent, function-calling, audio, text and document endpoints it is a `Genai.Reply`: `Returned(response)` or `Raised(message)`. For the embedding endpoints it is an `EmbeddingRouter.Outcome`: `Embedded(reply)` or `Failed(message)`. An endpoint's result is a `Http.Status`:

- `Ok(reply)`;
- `BadRequest(detail)` for HTTP 400;
- `ServerError(cause)` for HTTP 500, where the cause records which exception produced it.

An attribute that the source probes with `hasattr` separately from its value is a `Wrappers.Attr`: absent, holding None, or holding a value. Base64 (section 4 of RFC 4648) is an opaque `Genai.Encoder` parameter. Data URLs follow section 3 of RFC 2397. They are shown to read back losslessly whenever the media type contains no ';' (`DataUrls`).

Modules and files:

| Module | File |
|---|---|
| `Wrappers` | wrappers.dfy |
| `Strings` | strings.dfy |
| `Http` | http.dfy |
| `Genai` | genai.dfy |
| `DataUrls` | data_url.dfy |
| `ImageRouter` | image.dfy |
| `AgentRouter` | agent.dfy |
| `FunctionCallingRouter` | function_calling.dfy |
| `AudioRouter` | audio.dfy |
| `EmbeddingRouter` | embedding.dfy |
| `TextRouter` | text.dfy |
| `DocumentRouter` | document.dfy |
| `ApiClient` | client.dfy |
| `AgentPage` | agent_page.dfy |

## Model

| member | source | states |
|---|---|---|
| Genai.FirstCandidateParts | backend/routers/image.py:105-107 | Nothing is scanned when there is no candidate or the first has no content. A content whose `parts` is None cannot be iterated. Otherwise the scanned list is exactly that content's parts. |
| Genai.FlatParts | backend/routers/image.py:114-115 | The flat `parts` list is scanned only when the attribute exists. A None list cannot be iterated. |
| Genai.PartsWithFallback | backend/routers/image.py:105-119 | The first candidate's parts decide whenever `candidates` is non-empty. The flat list is consulted only when it is empty. |
| Genai.UploadMime | backend/routers/image.py:253 | An upload's declared content type is used when non-empty; otherwise the fallback type is used. |
| DataUrls.DataUrl | backend/routers/image.py:133 | A data URL starts with "data:" and has exactly the length of scheme, type, marker and payload. |
| DataUrls.ParseBuiltDataUrl | backend/routers/image.py:133 | A built URL reads back to its media type and payload whenever the type contains no ';'. |
| DataUrls.ParsedDataUrlIsBuilt | backend/routers/image.py:133 | Whatever reads back was built from exactly the parts it reads back to. |
| Strings.LowerKeepsContains | backend/routers/audio.py:60 | A substring still occurs after both strings are lower-cased. |
| Strings.TrimEmptyIffBlank | frontend/src/api/client.ts:21 | `trim()` yields "" exactly when every character is JavaScript whitespace. |
| ImageRouter.GeminiIsNotImagen | backend/routers/image.py:54 | A "gemini" name is never an "imagen" name. "imagen-4.0" is itself an "imagen" name. |
| ImageRouter.SelectGenerateModel | backend/routers/image.py:51-71 | The generate endpoint's model choice; see the list after this table. |
| ImageRouter.ImagenIsNeverDefaulted | backend/routers/image.py:54-62 | An "imagen" model would be defaulted if the first check were missing, and it is never accepted. |
| ImageRouter.SelectEditModel | backend/routers/image.py:229-231 | Editing (and composition, lines 346-348) keeps a "gemini" model. Any other model becomes "gemini-3-pro-image-preview". |
| ImageRouter.EditHasNoAllowList | backend/routers/image.py:229-231 | A "gemini" model off the allow-list is refused by generation but used as given by editing. |
| ImageRouter.ImageConfigFor | backend/routers/image.py:74-84 | An image config is sent exactly when an aspect ratio or a resolution is given. It carries exactly the given settings. |
| ImageRouter.LastBlobWins | backend/routers/image.py:105-119 | The payload kept is that of the last part with inline data, whatever came before it. |
| ImageRouter.NoBlobNoData | backend/routers/image.py:105-119 | Without an inline part there is no payload. |
| ImageRouter.LastMimeIsDeclared | backend/routers/image.py:103-112 | The reported MIME type is "image/png" or one that some part declared. |
| ImageRouter.MimeMayComeFromEarlierPart | backend/routers/image.py:103-112 | The MIME type can come from an earlier part than the payload. |
| ImageRouter.ScanImageParts | backend/routers/image.py:105-119 | The loop yields the last inline payload and the last declared MIME type (default "image/png"). |
| ImageRouter.ImageUrlFor | backend/routers/image.py:121-133 | A falsy payload gives no URL. Bytes are base64-encoded and a str is used verbatim in `data:<mime>;base64,<payload>`. Any other type is the ValueError. |
| ImageRouter.EncodedStrMatchesBytes | backend/routers/image.py:125-130 | Raw bytes and the same bytes already base64-encoded give the same URL. |
| ImageRouter.FoundUrlReadsBack | backend/routers/image.py:121-133 | A found URL reads back as the reported MIME type and the last inline payload. |
| ImageRouter.FlatPartsIgnoredWithCandidates | backend/routers/image.py:105-119 | Changing the flat parts cannot change the outcome while candidates exist. |
| ImageRouter.SearchImage | backend/routers/image.py:102-133 | The scan of a response agrees with its specification: which list, last write, URL or error. |
| ImageRouter.GenerateOutcome | backend/routers/image.py:51-152 | A refused model is never answered with success. A returned model is always allow-listed. A reply carrying the placeholder URL never carries an aspect ratio or resolution. |
| ImageRouter.GenerateImage | backend/routers/image.py:51-152 | A call is sent exactly when the model is accepted. It goes to the selected allow-listed model with the prompt as its only content and `ImageConfigFor(aspect ratio, resolution)` as its config. The answer is `GenerateOutcome`. A refused model gives its 400/500 and an SDK error a 500 with its message. |
| ImageRouter.NoImagePlaceholderVersusError | backend/routers/image.py:142-147 | For a response in which the scan finds no image, generation answers the placeholder URL for the selected model without aspect ratio or resolution. For the same response, editing and composition answer 500 "画像データが取得できませんでした" (image.py lines 309-310). |
| ImageRouter.EditContents | backend/routers/image.py:246-259 | The edit request holds the prompt first, then the upload inline (its content type or "image/jpeg"). |
| ImageRouter.ComposeContents | backend/routers/image.py:351-360 | The compose request holds the prompt, then one inline part per file in order. |
| ImageRouter.FinishEdit | backend/routers/image.py:274-316 | The shared tail of editing and composition: a URL, a 500 when no image is found, or the scan's error. The model is always "gemini"-prefixed. |
| ImageRouter.EditImage | backend/routers/image.py:229-316 | `edit_image` calls the SDK with the edit model rule, the prompt and upload as its two parts, and the image config built only from given settings. Its answer is the shared edit outcome, with the model it called. |
| ImageRouter.ComposeImages | backend/routers/image.py:346-433 | `compose_images` calls the SDK with the same model rule, the prompt followed by one inline part per file in order, and the same config rule. It answers 500 on no image (lines 426-427). |
| ImageRouter.ChatModel | backend/routers/image.py:485 | The chat model is the requested one when non-empty, else "gemini-3-pro-image-preview". It is never empty. |
| ImageRouter.SessionIdFor | backend/routers/image.py:470 | The session id is the request's when given and non-empty, else the fresh id. |
| ImageRouter.ChatTextIsLastText | backend/routers/image.py:514-517 | The chat reply's text is the last non-empty text part. |
| ImageRouter.ChatUrlIffEncodable | backend/routers/image.py:518-530 | The chat reply has an image URL exactly when some non-text part's payload is bytes or a str. |
| ImageRouter.ChatKeepsEmptyPayload | backend/routers/image.py:523-530 | Unlike the other image endpoints, the chat turns an empty payload into a URL. |
| ImageRouter.ScanChatParts | backend/routers/image.py:510-530 | The chat loop, with the MIME type carried between parts, agrees with the fold that specifies it. |
| ImageRouter.ImageChatSessions.constructor | backend/routers/image.py:452 | The session table starts empty. |
| ImageRouter.ImageChatSessions.Chat | backend/routers/image.py:470-539 | Creates or reuses a session; see the list after this table. |
| AgentRouter.ToolFor | backend/routers/agent.py:39-52 | google_search, url_context, code_execution and file_search map to a declaration with that key. Every other name, google_maps included, maps to none. |
| AgentRouter.DeclaredIffRequested | backend/routers/agent.py:39-52 | A tool is declared exactly when its key was requested. |
| AgentRouter.DeclarationsAppend | backend/routers/agent.py:39-52 | Declarations follow request order. |
| AgentRouter.NoDeclarationsIffNoSupported | backend/routers/agent.py:39-54 | Nothing is declared, so no config is sent, exactly when no requested name is supported. |
| AgentRouter.BuildTools | backend/routers/agent.py:38-54 | The loop builds the declarations in order. The config is None exactly when there are none. |
| AgentRouter.PartToolName | backend/routers/agent.py:72-78 | A part contributes a tool name only if it has no text and its call's name is non-empty. |
| AgentRouter.TextsOf | backend/routers/agent.py:72-73 | Every collected text is non-empty. |
| AgentRouter.CollectAppend | backend/routers/agent.py:70-78 | Texts and call names are collected in part order. |
| AgentRouter.TextPartHidesCall | backend/routers/agent.py:72-75 | A part with text is never inspected for a call. |
| AgentRouter.PartNamesKeepDuplicates | backend/routers/agent.py:72-78 | The parts path keeps a repeated name. |
| AgentRouter.ScanAgentParts | backend/routers/agent.py:66-80 | The loop over the first candidate's parts agrees with the collections above. |
| AgentRouter.AppendNewExtends | backend/routers/agent.py:83-88 | Names collected earlier stay, in place, at the front. |
| AgentRouter.AppendNewKeepsDistinct | backend/routers/agent.py:83-88 | The `function_calls` path never adds a name twice. |
| AgentRouter.AppendNewElements | backend/routers/agent.py:83-88 | A name ends up collected exactly when it was before or some call carries it. |
| AgentRouter.RepeatedCallReportedOnce | backend/routers/agent.py:83-88 | A repeated `function_calls` name is reported once. |
| AgentRouter.AddCallNames | backend/routers/agent.py:83-88 | The loop agrees with the de-duplicating append. |
| AgentRouter.DefaultText | backend/routers/agent.py:109-113 | With no text: "ツールを使用しました: " plus the names joined by ", " when tools were used, else "レスポンスを生成しました。". Never empty. |
| AgentRouter.AgentTextNeverEmpty | backend/routers/agent.py:104-113 | The reply text is never empty. |
| AgentRouter.CollectedNamesReported | backend/routers/agent.py:63-88 | Collected names are reported: parts first, then new names from `function_calls`. |
| AgentRouter.JoinedTextReported | backend/routers/agent.py:70-80 | Without the fallback, the non-empty texts of the first candidate's parts reach the reply as their single-space join, in part order. |
| AgentRouter.FallbackReportsRequestedTools | backend/routers/agent.py:93-101 | With nothing collected, tools requested and a response text, the reply is that text and the requested list as is. This holds whatever texts the parts gave, so the fallback replaces an already joined text. |
| AgentRouter.FallbackReportsUndeclaredTool | backend/routers/agent.py:93-101 | The fallback reports google_maps even though it was never declared. |
| AgentRouter.NoTextGivesDefault | backend/routers/agent.py:104-113 | With no text anywhere, the reply is the default text for the tools used. |
| AgentRouter.AgentChat | backend/routers/agent.py:60-122 | `agent_chat` after the SDK reply agrees with its specification: errors, collection, fallback and default. |
| FunctionCallingRouter.BuildDeclarations | backend/routers/function_calling.py:54-62 | One declaration per requested function, in order, with name, description and parameters unchanged. |
| FunctionCallingRouter.NormalizeArgs | backend/routers/function_calling.py:79-86 | A dict is used as is. Otherwise `model_dump()` is preferred to `__dict__`. With none of the three the arguments are `{}`. |
| FunctionCallingRouter.ArgsTable | backend/routers/function_calling.py:98-105 | The step-by-step reassignment agrees with the priority chain. |
| FunctionCallingRouter.ShortcutCallsAppend | backend/routers/function_calling.py:75-93 | `function_calls` entries give calls in order, without de-duplication. |
| FunctionCallingRouter.ShortcutCallsCount | backend/routers/function_calling.py:75-93 | With every entry named, each gives exactly its own call. |
| FunctionCallingRouter.ExtractShortcutCalls | backend/routers/function_calling.py:74-93 | The loop skips an entry without a name attribute. A None name fails the reply model. |
| FunctionCallingRouter.PartCallsAsWritten | backend/routers/function_calling.py:94-112 | As written, every part that has a `function_call` attribute gives a call, so a reply whose parts all have that attribute gives one call per part. |
| FunctionCallingRouter.PartCallsAsWrittenAppend | backend/routers/function_calling.py:95-112 | As written too, the calls of two part lists joined are those of the first followed by those of the second. Part order is kept and nothing is de-duplicated, the "None" calls of parts whose `function_call` is None included. |
| FunctionCallingRouter.PartCalls | backend/routers/function_calling.py:94-112 | The parts path as evidently intended: only parts that carry a call give one, so there are never more calls than parts. |
| FunctionCallingRouter.PartCallsAppend | backend/routers/function_calling.py:95-112 | Parts give calls in order, without de-duplication. |
| FunctionCallingRouter.NoCallPartsGiveNoCalls | backend/routers/function_calling.py:95-97 | On the intended path, parts that carry no call give no calls. |
| FunctionCallingRouter.UnnamedCallOnBothPaths | backend/routers/function_calling.py:77 | A call without a name is skipped on the `function_calls` path. On the parts path it is named `str(fc)` (line 109). |
| FunctionCallingRouter.ExtractPartCalls | backend/routers/function_calling.py:94-112 | The loop as written: every part with a `function_call` attribute gives a call, and one holding None gives the call "None" with `{}`. A call whose name holds None fails the reply model with a 500. |
| FunctionCallingRouter.ExtractPartCallsIntended | backend/routers/function_calling.py:94-112 | The same loop as evidently intended agrees with `PartCalls`: parts without a call are skipped. |
| FunctionCallingRouter.AsWrittenAgreesWithoutNullCalls | backend/routers/function_calling.py:96 | The two parts-path readings give the same calls whenever no part's `function_call` holds None. |
| FunctionCallingRouter.ReplyText | backend/routers/function_calling.py:118 | The reply text is `response.text` exactly when no call was extracted, else None. |
| FunctionCallingRouter.ShortcutPathIgnoresCandidates | backend/routers/function_calling.py:74-94 | While `function_calls` is non-empty the candidates are never read, on either reading of the parts path. |
| FunctionCallingRouter.TextOnlyWithoutCalls | backend/routers/function_calling.py:116-120 | On the intended path, a successful reply carries the response text exactly when it carries no call. |
| FunctionCallingRouter.NoCallsKeepText | backend/routers/function_calling.py:94-120 | On the intended path, a reply whose first candidate's parts carry no call returns no calls and the response text. |
| FunctionCallingRouter.AsWrittenAgreesWithIntended | backend/routers/function_calling.py:72-123 | The endpoint as written and as intended give the same answer, unless the parts path is taken and some part's `function_call` holds None. |
| FunctionCallingRouter.TextReplyAsWritten | backend/routers/function_calling.py:94-118 | For the finding below: on a text-only reply the endpoint as written answers one call "None" with `{}` and text None. The intended endpoint answers no calls and the text. |
| FunctionCallingRouter.CallOutcomeIntended | backend/routers/function_calling.py:72-123 | `call_functions` with the intended parts path. An SDK error is a 500 with its message. A successful reply echoes the request model, and a returned text implies no calls. |
| FunctionCallingRouter.CallFunctions | backend/routers/function_calling.py:72-123 | `call_functions` as written, after the SDK reply: the `function_calls` path when it is non-empty, else the as-written parts path, else no calls. A returned text implies no calls. |
| AudioRouter.VoiceName | backend/routers/audio.py:44 | "default" becomes "Kore". Any other voice is passed on unchanged. |
| AudioRouter.AudioInAnyCase | backend/routers/audio.py:60 | An error naming "audio" in any ASCII case counts as TTS being unavailable. |
| AudioRouter.UpperCaseAudioIsUnavailable | backend/routers/audio.py:60 | "Audio output is not supported" is recognised. |
| AudioRouter.FirstBlobWins | backend/routers/audio.py:74-82 | The first part with inline data decides, whatever follows it. |
| AudioRouter.FirstMatchVersusLastWrite | backend/routers/audio.py:74-77 | With two audio parts the audio scan keeps the first where the image scan keeps the last. |
| AudioRouter.ScanAudioParts | backend/routers/audio.py:74-82 | The loop with `break` agrees with first-match. |
| AudioRouter.AudioUrlFor | backend/routers/audio.py:86-93 | A falsy payload gives the placeholder. Bytes give `data:audio/mpeg;base64,…`. Any other payload fails to encode. |
| AudioRouter.AudioUrlShape | backend/routers/audio.py:86-93 | A returned URL is the placeholder or reads back as type "audio/mpeg". |
| AudioRouter.DeclaredMimeIgnored | backend/routers/audio.py:89 | Any two responses that differ only in the MIME types their parts declare get the same answer. |
| AudioRouter.ErrorClassification | backend/routers/audio.py:57-67 | An SDK error naming "TTS", or "audio" in any case, gives the placeholder. Any other error is a 500 with its message. |
| AudioRouter.GenerateAudio | backend/routers/audio.py:33-102 | The text is sent unchanged to the request model. The speech config's prebuilt voice is "Kore" for "default" and the requested voice otherwise. The answer agrees with `AudioOutcome` and echoes the request model. |
| EmbeddingRouter.SingleEmbedding | backend/routers/embedding.py:43-53 | Each step of the chain is stated. A non-empty `embeddings` list gives its first item's `values`. Otherwise a present `embedding` gives its values or itself. Otherwise a present `values` is used. Otherwise nothing is found. A None `embeddings` raises, and so does a first item without `values`. A plain list finds nothing. A found vector must be non-empty; None or `[]` is "not found". |
| EmbeddingRouter.Checked | backend/routers/embedding.py:52-53 | A candidate vector is accepted exactly when it is present and non-empty, and is then returned unchanged. Otherwise the reply is the "not found" ValueError as a 500. |
| EmbeddingRouter.EmptyEmbeddingsFallThrough | backend/routers/embedding.py:43-46 | An empty `embeddings` list passes on to `embedding`. |
| EmbeddingRouter.EmbeddingBeforeValues | backend/routers/embedding.py:45-48 | `embedding` (its values, else itself) is preferred to `values`. |
| EmbeddingRouter.NothingFound | backend/routers/embedding.py:49-53 | With no attribute at all the reply is "Embedding values not found in response" as a 500. |
| EmbeddingRouter.SingleOutcome | backend/routers/embedding.py:57-64 | A found vector with a model gives the reply with that vector, that model and its length as the dimensions. A success always has non-empty dimensions equal to the vector's length. An SDK error is a 500 with its message. A failed lookup is the 500 of its cause. |
| EmbeddingRouter.CollectVectors | backend/routers/embedding.py:99-109 | One vector per item, in order; `[]` for an item without `values`. |
| EmbeddingRouter.BatchPerItem | backend/routers/embedding.py:96-117 | The batch has one vector per item, `[]` where values are missing, and dimensions equal to the first vector's length or 0. |
| EmbeddingRouter.SingleReplyGivesOneVector | backend/routers/embedding.py:110-115 | A reply that is neither a holder nor a list gives exactly one vector: its own values or `[]`. |
| EmbeddingRouter.GenerateBatchEmbeddings | backend/routers/embedding.py:86-127 | `generate_batch_embeddings` after the SDK reply agrees with its specification. |
| TextRouter.GenerateTextConfig | backend/routers/text.py:34-44 | "temperature" is present exactly when a temperature is given, and "max_output_tokens" exactly when a limit is. No other keys. An empty table is sent as None. |
| TextRouter.DefaultConfigIsSent | backend/routers/text.py:16 | With the default temperature 0.7 the config is always sent with it. |
| TextRouter.TextOutcome | backend/routers/text.py:48 | A reply succeeds exactly when the response has a text and the request a model; the reply is that pair. |
| TextRouter.SdkRole | backend/routers/text.py:77-82 | "user" stays "user", "assistant" becomes "model", and other roles have no SDK role. |
| TextRouter.Kept | backend/routers/text.py:76-82 | Only user and assistant messages are kept. |
| TextRouter.ConvertedAppend | backend/routers/text.py:76-82 | Conversion preserves message order. |
| TextRouter.ConvertedIsKeptMessages | backend/routers/text.py:75-82 | The contents are exactly the kept messages, each with its mapped role and one verbatim text part. |
| TextRouter.SystemMessageDropped | backend/routers/text.py:76-82 | A "system" message is dropped. |
| TextRouter.ChatContents | backend/routers/text.py:75-82 | The loop agrees with the conversion. |
| TextRouter.ChatConfig | backend/routers/text.py:87 | The chat config always holds exactly the temperature, even when null. |
| DocumentRouter.DocumentMime | backend/routers/document.py:36-43 | The MIME selection rule; see the list after this table. |
| DocumentRouter.SuffixesExclusive | backend/routers/document.py:38-43 | At most one of the three suffixes matches a name. |
| DocumentRouter.UpperCaseSuffixNotRecognised | backend/routers/document.py:38 | Suffix matching is case-sensitive. |
| DocumentRouter.DocumentParts | backend/routers/document.py:48-60 | The prompt text part comes first, then the document inline with the selected type. |
| DocumentRouter.DocumentOutcome | backend/routers/document.py:63-65 | A reply succeeds exactly when there is a text and a model. The page count is always None. |
| ApiClient.WithApiSuffix | frontend/src/api/client.ts:22 | The result ends with "/api". It is the URL itself when it already did, else the URL plus "/api". |
| ApiClient.GetBaseUrl | frontend/src/api/client.ts:19-36 | The base URL always ends with "/api". |
| ApiClient.SameInAndOutOfBrowser | frontend/src/api/client.ts:19-36 | The browser and non-browser branches agree. |
| ApiClient.SuffixRuleIdempotent | frontend/src/api/client.ts:22 | Applying the suffix rule to a base URL changes nothing. |
| ApiClient.BlankMeansDefault | frontend/src/api/client.ts:28-36 | An undefined or blank URL gives "http://localhost:8800/api". Any other URL gets the suffix rule. |
| ApiClient.WhitespaceKept | frontend/src/api/client.ts:21-22 | Surrounding whitespace stays: the configured URL is a prefix of the result. |
| AgentPage.Without | frontend/src/pages/Agent.tsx:37 | The filter removes every occurrence and keeps every other element. |
| AgentPage.ToggleTool | frontend/src/pages/Agent.tsx:35-39 | A selected tool is removed everywhere. An unselected one is appended at the end. |
| AgentPage.WithoutAppend | frontend/src/pages/Agent.tsx:37 | Filtering preserves the relative order of the rest. |
| AgentPage.RemovalKeepsOrder | frontend/src/pages/Agent.tsx:37 | Removing a tool gives back the surrounding tools in order. |
| AgentPage.ToggleTwiceRestores | frontend/src/pages/Agent.tsx:35-39 | Toggling an unselected tool twice restores the list. |
| AgentPage.HandleChat | frontend/src/pages/Agent.tsx:11-26 | The body carries the untrimmed prompt and model "gemini-3-pro-preview". The tools are omitted exactly when none are selected. |
| AgentPage.RejectedIffBlank | frontend/src/pages/Agent.tsx:12-15 | The request is refused with "プロンプトを入力してください" exactly when the prompt is blank. |

`ImageRouter.SelectGenerateModel` states:

- a null model is a 500;
- an "imagen" model is a 400 naming it;
- any other non-"gemini" model becomes "gemini-2.5-flash-image";
- a "gemini" model passes only if allow-listed, and is otherwise a 400 listing the allow-list;
- a model that passes is always one of the two allowed names.

`ImageRouter.ImageChatSessions.Chat` states:

- a session is created only for an id not yet in the table;
- an existing session is reused, and the table is left unchanged;
- the message goes to that session, with a per-message config holding this request's image config, or none when no aspect ratio or resolution is given;
- for a new session, that per-message config equals the one the session was created with;
- the reply carries the scanned text and URL, the chat model and the session id;
- after the call the session used is stored under that id;
- its model, like every stored model, is non-empty.

`DocumentRouter.DocumentMime` states:

- with a non-empty file name, ".pdf" forces "application/pdf";
- ".docx" forces the wordprocessingml type;
- ".txt" forces "text/plain";
- otherwise the upload's content type is kept, or "application/pdf" when there is none;
- the result is never empty.

## Left out

- SDK calls are not modelled: `generate_content`, `chats.create`, `send_message` and `embed_content`. Their replies are inputs, and the request an endpoint would send is stated by the request-building members. The exact config object handed to the SDK is modelled only where it is built from the request: the image config (at creation and per chat message), the speech config's voice, the tool declarations and the text config. Constant settings such as the response modalities are named in comments only.
- The base64 encoder is not modelled: it is an opaque function parameter. The fresh session id (`uuid.uuid4()`) is a parameter.
- Async/await, logging, `console.log` and the axios interceptors (frontend/src/api/client.ts:48-82) are not modelled.
- Concurrency on `_chat_sessions` is not modelled; calls are sequential.
- structured_output.py, video.py, main.py, config.py, client.py and vite.config.ts are not part of this model. Neither are the image analyze endpoint, the audio transcribe endpoint, and the UI pages other than the agent page's two helpers.
- Pydantic request validation is not modelled: literal aspect ratios, resolutions and required fields. A reply field the reply model would refuse (a None model or text, a None name, a None vector) is modelled only as the 500 it causes.
- The form parameter `model` of edit_image and compose_images is a string. A form cannot submit None for it.
- `Strings.AsciiLower`: Python's `str.lower()` is modelled for ASCII letters only. Non-ASCII case folding is not covered.
- Floats are not modelled: embedding values are a type parameter, and temperature is a `real` passed through without arithmetic.
- `AudioRouter.AudioUrlFor`: any non-bytes payload is treated as failing `b64encode`. Bytes-like objects other than bytes are not distinguished.
- In the SDK, `response.function_calls` may be None. It is modelled as the empty list, which the router treats the same way.

## Findings

| source | as written | input that shows it | evidently intended | confidence | as-written member | corrected member |
|---|---|---|---|---|---|---|
| backend/routers/function_calling.py:96 | `hasattr(part, "function_call")` is true for every SDK part. A part whose `function_call` is None (any text part) yields the call `{"name": "None", "arguments": {}}`, and line 118 then drops the text. | A text-only reply: `function_calls` empty, one candidate part with text "hi" and `function_call` None. As written, the reply holds one call named "None" and `text` None. | Only parts that carry a call give one (`hasattr(...) and part.function_call`), so a text-only reply returns no calls and its text. | not executed | FunctionCallingRouter.CallFunctions | FunctionCallingRouter.CallOutcomeIntended |

=== FILE: agent.dfy ===
/**
 * The agent router: built-in tool declarations from the requested tool
 * names, the text and tool names collected from a response, the fallback
 * that reports the requested tools, and the default reply text.
 */
module AgentRouter {
  import opened Wrappers
  import opened Strings
  import opened Genai
  import opened Http

  // ---------------------------------------------------------------------
  // Tool declarations
  // ---------------------------------------------------------------------

  /** The built-in tools the router can declare, each as `{<key>: {}}`. */
  datatype BuiltinTool = GoogleSearch | UrlContext | CodeExecution | FileSearch

  function ToolKey(t: BuiltinTool): string {
    match t
    case GoogleSearch => "google_search"
    case UrlContext => "url_context"
    case CodeExecution => "code_execution"
    case FileSearch => "file_search"
  }

  /** The declaration for a requested tool name; google_maps and unknown names have none. */
  function ToolFor(name: string): (t: Option<BuiltinTool>)
    ensures t.Some? ==> ToolKey(t.value) == name
    ensures t.None? ==> forall b: BuiltinTool :: ToolKey(b) != name
  {
    if name == "google_search" then Some(GoogleSearch)
    else if name == "url_context" then Some(UrlContext)
    else if name == "code_execution" then Some(CodeExecution)
    else if name == "file_search" then Some(FileSearch)
    else None
  }

  lemma GoogleMapsIsNotDeclared()
    ensures ToolFor("google_maps") == None
  {
  }

  /** The declarations for the requested names, in request order. */
  function Declarations(names: seq<string>): seq<BuiltinTool> {
    if names == [] then []
    else
      var last := names[|names| - 1];
      Declarations(names[..|names| - 1]) + (if ToolFor(last).Some? then [ToolFor(last).value] else [])
  }

  /** Declaring the names of a concatenation declares each half in turn. */
  lemma {:induction false} DeclarationsAppend(a: seq<string>, b: seq<string>)
    ensures Declarations(a + b) == Declarations(a) + Declarations(b)
    decreases |b|
  {
    if b == [] {
      assert a + b == a;
    } else {
      var init := b[..|b| - 1];
      assert (a + b)[..|a + b| - 1] == a + init;
      assert (a + b)[|a + b| - 1] == b[|b| - 1];
      DeclarationsAppend(a, init);
    }
  }

  /** A tool is declared exactly when its key was requested. */
  lemma {:induction false} DeclaredIffRequested(names: seq<string>, t: BuiltinTool)
    ensures t in Declarations(names) <==> ToolKey(t) in names
  {
    if names != [] {
      var init := names[..|names| - 1];
      DeclaredIffRequested(init, t);
      assert names == init + [names[|names| - 1]];
    }
  }

  /** No declarations exactly when no requested name is a supported tool. */
  lemma {:induction false} NoDeclarationsIffNoSupported(names: seq<string>)
    ensures Declarations(names) == [] <==> forall i | 0 <= i < |names| :: ToolFor(names[i]).None?
  {
    if names != [] {
      var init := names[..|names| - 1];
      NoDeclarationsIffNoSupported(init);
      assert forall i | 0 <= i < |init| :: init[i] == names[i];
    }
  }

  /** The loop over `request.tools`, and the config that is None exactly when nothing was declared. */
  method BuildTools(requested: Option<seq<string>>) returns (tools: seq<BuiltinTool>, config: Option<seq<BuiltinTool>>)
    ensures requested.None? ==> tools == []
    ensures requested.Some? ==> tools == Declarations(requested.value)
    ensures config.None? <==> tools == []
    ensures config.Some? ==> config.value == tools
  {
    tools := [];
    if requested.Some? {
      var names := requested.value;
      for i := 0 to |names|
        invariant tools == Declarations(names[..i])
      {
        assert names[..i + 1][..i] == names[..i];
        var t := ToolFor(names[i]);
        if t.Some? {
          tools := tools + [t.value];
        }
      }
      assert names[..|names|] == names;
    }
    config := if tools != [] then Some(tools) else None;
  }

  // ---------------------------------------------------------------------
  // Scanning the first candidate's parts
  // ---------------------------------------------------------------------

  /** The tool name a part contributes: only a part without text, with a call whose name is non-empty. */
  function PartToolName(p: Part): (n: Option<string>)
    ensures n.Some? ==> n.value != "" && !Truthy(p.text)
  {
    if Truthy(p.text) then None
    else match p.functionCall
      case Has(fc) => (match fc.name case Has(name) => if name != "" then Some(name) else None case _ => None)
      case _ => None
  }

  /** The non-empty texts of the parts, in order. */
  function TextsOf(ps: seq<Part>): (ts: seq<string>)
    ensures forall i | 0 <= i < |ts| :: ts[i] != ""
  {
    if ps == [] then []
    else TextsOf(ps[..|ps| - 1]) + (if Truthy(ps[|ps| - 1].text) then [ps[|ps| - 1].text.value] else [])
  }

  /** The call names the parts contribute, in order, duplicates kept. */
  function CallNamesOf(ps: seq<Part>): seq<string> {
    if ps == [] then []
    else
      var n := PartToolName(ps[|ps| - 1]);
      CallNamesOf(ps[..|ps| - 1]) + (if n.Some? then [n.value] else [])
  }

  /** Both collections of a concatenation are the concatenations of the collections. */
  lemma {:induction false} CollectAppend(a: seq<Part>, b: seq<Part>)
    ensures TextsOf(a + b) == TextsOf(a) + TextsOf(b)
    ensures CallNamesOf(a + b) == CallNamesOf(a) + CallNamesOf(b)
    decreases |b|
  {
    if b == [] {
      assert a + b == a;
    } else {
      var init := b[..|b| - 1];
      assert (a + b)[..|a + b| - 1] == a + init;
      assert (a + b)[|a + b| - 1] == b[|b| - 1];
      CollectAppend(a, init);
    }
  }

  /** A part with text contributes its text and never a tool name, whatever call it carries. */
  lemma TextPartHidesCall(p: Part)
    requires Truthy(p.text)
    ensures TextsOf([p]) == [p.text.value]
    ensures CallNamesOf([p]) == []
  {
    assert [p][..0] == [];
  }

  /** The parts path keeps a repeated call name. */
  lemma PartNamesKeepDuplicates()
    ensures var p := Part(None, None, Has(FunctionCall(Has("lookup"), Absent, "")));
      CallNamesOf([p, p]) == ["lookup", "lookup"]
  {
    var p := Part(None, None, Has(FunctionCall(Has("lookup"), Absent, "")));
    assert |"lookup"| == 6;
    assert PartToolName(p) == Some("lookup");
    assert [p, p][..1] == [p];
    assert [p][..0] == [];
    assert CallNamesOf([p]) == ["lookup"];
  }

  /** The loop over `candidates[0].content.parts`. */
  method ScanAgentParts(ps: seq<Part>) returns (texts: seq<string>, names: seq<string>)
    ensures texts == TextsOf(ps)
    ensures names == CallNamesOf(ps)
  {
    texts, names := [], [];
    for i := 0 to |ps|
      invariant texts == TextsOf(ps[..i])
      invariant names == CallNamesOf(ps[..i])
    {
      assert ps[..i + 1][..i] == ps[..i];
      var part := ps[i];
      if part.text.Some? && part.text.value != "" {
        texts := texts + [part.text.value];
      } else if part.functionCall.Has? {
        var fc := part.functionCall.value;
        if fc.name.Has? && fc.name.value != "" {
          names := names + [fc.name.value];
        }
      }
    }
    assert ps[..|ps|] == ps;
  }

  // ---------------------------------------------------------------------
  // Adding `response.function_calls` without duplicates
  // ---------------------------------------------------------------------

  function CallName(fc: FunctionCall): (n: Option<string>)
    ensures n.Some? <==> fc.name.Has? && fc.name.value != ""
    ensures n.Some? ==> n.value == fc.name.value
  {
    if fc.name.Has? && fc.name.value != "" then Some(fc.name.value) else None
  }

  function AddIfNew(acc: seq<string>, fc: FunctionCall): seq<string> {
    match CallName(fc)
    case Some(n) => if n in acc then acc else acc + [n]
    case None => acc
  }

  /** `acc` after each named call not yet in it has been appended. */
  function AppendNew(acc: seq<string>, fcs: seq<FunctionCall>): seq<string>
    decreases |fcs|
  {
    if fcs == [] then acc else AppendNew(AddIfNew(acc, fcs[0]), fcs[1..])
  }

  predicate Distinct(s: seq<string>) {
    forall i, j | 0 <= i < j < |s| :: s[i] != s[j]
  }

  /** What was collected before is kept, in place, at the front. */
  lemma {:induction false} AppendNewExtends(acc: seq<string>, fcs: seq<FunctionCall>)
    ensures acc <= AppendNew(acc, fcs)
    decreases |fcs|
  {
    if fcs != [] {
      AppendNewExtends(AddIfNew(acc, fcs[0]), fcs[1..]);
    }
  }

  /** Nothing is added twice: a list without duplicates stays without them. */
  lemma {:induction false} AppendNewKeepsDistinct(acc: seq<string>, fcs: seq<FunctionCall>)
    requires Distinct(acc)
    ensures Distinct(AppendNew(acc, fcs))
    decreases |fcs|
  {
    if fcs != [] {
      AppendNewKeepsDistinct(AddIfNew(acc, fcs[0]), fcs[1..]);
    }
  }

  /** A name ends up collected exactly when it was collected before or some call carries it. */
  lemma {:induction false} AppendNewElements(acc: seq<string>, fcs: seq<FunctionCall>, n: string)
    ensures n in AppendNew(acc, fcs) <==> n in acc || exists i | 0 <= i < |fcs| :: CallName(fcs[i]) == Some(n)
    decreases |fcs|
  {
    if fcs != [] {
      AppendNewElements(AddIfNew(acc, fcs[0]), fcs[1..], n);
      assert forall i | 0 <= i < |fcs| - 1 :: fcs[1..][i] == fcs[i + 1];
      if exists i | 0 <= i < |fcs| :: CallName(fcs[i]) == Some(n) {
        var i :| 0 <= i < |fcs| && CallName(fcs[i]) == Some(n);
        if i > 0 { assert CallName(fcs[1..][i - 1]) == Some(n); }
      }
    }
  }

  /** A name repeated in `function_calls` is reported once. */
  lemma RepeatedCallReportedOnce()
    ensures var fc := FunctionCall(Has("lookup"), Absent, "");
      AppendNew([], [fc, fc]) == ["lookup"]
  {
    var fc := FunctionCall(Has("lookup"), Absent, "");
    assert |"lookup"| == 6;
    assert CallName(fc) == Some("lookup");
    assert AddIfNew([], fc) == ["lookup"];
    assert AddIfNew(["lookup"], fc) == ["lookup"];
    assert [fc, fc][1..] == [fc];
    assert [fc][1..] == [];
    assert AppendNew(["lookup"], []) == ["lookup"];
    assert AppendNew(["lookup"], [fc]) == AppendNew(AddIfNew(["lookup"], fc), []);
    assert AppendNew([], [fc, fc]) == AppendNew(AddIfNew([], fc), [fc]);
  }

  /** The loop over `response.function_calls`. */
  method AddCallNames(acc: seq<string>, fcs: seq<FunctionCall>) returns (used: seq<string>)
    ensures used == AppendNew(acc, fcs)
  {
    used := acc;
    for i := 0 to |fcs|
      invariant AppendNew(used, fcs[i..]) == AppendNew(acc, fcs)
    {
      assert fcs[i..][1..] == fcs[i + 1..];
      var fc := fcs[i];
      if fc.name.Has? && fc.name.value != "" {
        if fc.name.value !in used {
          used := used + [fc.name.value];
        }
      }
    }
  }

  // ---------------------------------------------------------------------
  // The endpoint
  // ---------------------------------------------------------------------

  const ToolsUsedPrefix := "ツールを使用しました: "
  const GenericReplyText := "レスポンスを生成しました。"

  datatype AgentRequest = AgentRequest(prompt: string, tools: Option<seq<string>>, model: Option<string>)

  datatype AgentReply = AgentReply(response: string, toolsUsed: seq<string>, model: string)

  /** The text used when the response carried none: it names the tools used, if any. */
  function DefaultText(used: seq<string>): (t: string)
    ensures t != ""
    ensures used == [] ==> t == GenericReplyText
    ensures used != [] ==> StartsWith(t, ToolsUsedPrefix) && t[|ToolsUsedPrefix|..] == Join(used, ", ")
  {
    if used != [] then ToolsUsedPrefix + Join(used, ", ") else GenericReplyText
  }

  /** The parts of the first candidate, or none when there is no candidate content. */
  function ScannedParts(l: Located): seq<Part> {
    if l.Scan? then l.parts else []
  }

  /** Whether the requested tools are reported in place of collected names. */
  predicate UseFallback(req: AgentRequest, r: Response, used: seq<string>) {
    used == [] && req.tools.Some? && req.tools.value != [] && Truthy(r.text)
  }

  /** agent_chat once the SDK has replied. */
  function AgentOutcome(req: AgentRequest, reply: Reply): Status<AgentReply> {
    match reply
    case Raised(msg) => ServerError(Upstream(msg))
    case Returned(r) =>
      if FirstCandidateParts(r).NotIterable? then ServerError(NoneAccess)
      else
        var ps := ScannedParts(FirstCandidateParts(r));
        var collected := AppendNew(CallNamesOf(ps), r.functionCalls);
        var joined := if TextsOf(ps) != [] then Some(Join(TextsOf(ps), " ")) else None;
        var fallback := UseFallback(req, r, collected);
        var used := if fallback then req.tools.value else collected;
        var text := if fallback then r.text else joined;
        var text' := if !Truthy(text) && Truthy(r.text) then r.text else text;
        if req.model.None? then ServerError(InvalidReplyField)
        else Ok(AgentReply(if Truthy(text') then text'.value else DefaultText(used), used, req.model.value))
  }

  lemma {:induction false} JoinOfNonEmpty(xs: seq<string>, sep: string)
    requires xs != [] && xs[0] != ""
    ensures Join(xs, sep) != ""
  {
    JoinStartsWithFirst(xs, sep);
  }

  /** The reply text is never empty. */
  lemma {:induction false} AgentTextNeverEmpty(req: AgentRequest, reply: Reply)
    requires AgentOutcome(req, reply).Ok?
    ensures AgentOutcome(req, reply).value.response != ""
  {
    var r := reply.response;
    var ps := ScannedParts(FirstCandidateParts(r));
    if TextsOf(ps) != [] {
      JoinOfNonEmpty(TextsOf(ps), " ");
    }
  }

  /** Collected tool names are reported as collected: parts first, then new names from `function_calls`. */
  lemma {:induction false} CollectedNamesReported(req: AgentRequest, r: Response)
    requires AgentOutcome(req, Returned(r)).Ok?
    requires AppendNew(CallNamesOf(ScannedParts(FirstCandidateParts(r))), r.functionCalls) != []
    ensures var names := CallNamesOf(ScannedParts(FirstCandidateParts(r)));
      names <= AgentOutcome(req, Returned(r)).value.toolsUsed
      && AgentOutcome(req, Returned(r)).value.toolsUsed == AppendNew(names, r.functionCalls)
  {
    AppendNewExtends(CallNamesOf(ScannedParts(FirstCandidateParts(r))), r.functionCalls);
  }

  /**
   * Without the fallback, collected texts reach the reply as their
   * single-space join, in part order.
   */
  lemma {:induction false} JoinedTextReported(req: AgentRequest, r: Response)
    requires req.model.Some? && !FirstCandidateParts(r).NotIterable?
    requires TextsOf(ScannedParts(FirstCandidateParts(r))) != []
    requires !UseFallback(req, r, AppendNew(CallNamesOf(ScannedParts(FirstCandidateParts(r))), r.functionCalls))
    ensures var texts := TextsOf(ScannedParts(FirstCandidateParts(r)));
      AgentOutcome(req, Returned(r)).Ok? && AgentOutcome(req, Returned(r)).value.response == Join(texts, " ")
  {
    JoinOfNonEmpty(TextsOf(ScannedParts(FirstCandidateParts(r))), " ");
  }

  /**
   * With nothing collected, non-empty requested tools and a response text,
   * the requested list is reported as is, google_maps and unknown names
   * included, and the response text is the reply.
   */
  lemma FallbackReportsRequestedTools(req: AgentRequest, r: Response)
    requires req.model.Some? && req.tools.Some? && req.tools.value != [] && Truthy(r.text)
    requires !FirstCandidateParts(r).NotIterable?
    requires AppendNew(CallNamesOf(ScannedParts(FirstCandidateParts(r))), r.functionCalls) == []
    ensures AgentOutcome(req, Returned(r)) == Ok(AgentReply(r.text.value, req.tools.value, req.model.value))
  {
  }

  /** The fallback can report a tool that was never declared. */
  lemma FallbackReportsUndeclaredTool()
    ensures var req := AgentRequest("where?", Some(["google_maps"]), Some("gemini-3-pro-preview"));
      var r := Response([], Absent, [], Some("Tokyo"));
      && Declarations(req.tools.value) == []
      && AgentOutcome(req, Returned(r)) == Ok(AgentReply("Tokyo", ["google_maps"], "gemini-3-pro-preview"))
  {
    assert ["google_maps"][..0] == [];
  }

  /** With no text anywhere, the reply names the tools used, or is the generic sentence. */
  lemma NoTextGivesDefault(req: AgentRequest, r: Response)
    requires req.model.Some? && !Truthy(r.text)
    requires !FirstCandidateParts(r).NotIterable?
    requires TextsOf(ScannedParts(FirstCandidateParts(r))) == []
    ensures var used := AppendNew(CallNamesOf(ScannedParts(FirstCandidateParts(r))), r.functionCalls);
      AgentOutcome(req, Returned(r)) == Ok(AgentReply(DefaultText(used), used, req.model.value))
  {
  }

  /** agent_chat, once the SDK has replied. */
  method AgentChat(req: AgentRequest, reply: Reply) returns (res: Status<AgentReply>)
    ensures res == AgentOutcome(req, reply)
  {
    if reply.Raised? {
      return ServerError(Upstream(reply.message));
    }
    var r := reply.response;
    var texts: seq<string> := [];
    var used: seq<string> := [];
    var located := FirstCandidateParts(r);
    match located {
      case NotIterable => return ServerError(NoneAccess);
      case NotFound =>
      case Scan(ps) => texts, used := ScanAgentParts(ps);
    }
    var text: Option<string> := if texts != [] then Some(Join(texts, " ")) else None;
    used := AddCallNames(used, r.functionCalls);
    if used == [] && req.tools.Some? && req.tools.value != [] {
      if r.text.Some? && r.text.value != "" {
        text := r.text;
        used := req.tools.value;
      }
    }
    if !(text.Some? && text.value != "") {
      if r.text.Some? && r.text.value != "" {
        text := r.text;
      }
    }
    var response := if text.Some? && text.value != "" then text.value else DefaultText(used);
    if req.model.None? {
      return ServerError(InvalidReplyField);
    }
    res := Ok(AgentReply(response, used, req.model.value));
  }
}

=== FILE: agent_page.dfy ===
/**
 * The agent page of the frontend: toggling a tool in the selected list, and
 * the guard and body of the chat request.
 */
module AgentPage {
  import opened Wrappers
  import opened Strings

  const AgentChatModel := "gemini-3-pro-preview"
  const EmptyPromptError := "プロンプトを入力してください"

  /** `s.filter((t) => t !== x)`. */
  function Without(s: seq<string>, x: string): (r: seq<string>)
    ensures x !in r
    ensures forall y | y != x :: y in r <==> y in s
    ensures |r| <= |s|
  {
    if s == [] then []
    else Without(s[..|s| - 1], x) + (if s[|s| - 1] == x then [] else [s[|s| - 1]])
  }

  /** `toggleTool`: a selected tool is removed everywhere, an unselected one is appended. */
  function ToggleTool(prev: seq<string>, tool: string): (next: seq<string>)
    ensures tool in prev ==> tool !in next
    ensures tool !in prev ==> next == prev + [tool]
  {
    if tool in prev then Without(prev, tool) else prev + [tool]
  }

  /** Filtering a concatenation filters each half: the remaining tools keep their order. */
  lemma {:induction false} WithoutAppend(a: seq<string>, b: seq<string>, x: string)
    ensures Without(a + b, x) == Without(a, x) + Without(b, x)
    decreases |b|
  {
    if b == [] {
      assert a + b == a;
    } else {
      var init := b[..|b| - 1];
      assert (a + b)[..|a + b| - 1] == a + init;
      assert (a + b)[|a + b| - 1] == b[|b| - 1];
      WithoutAppend(a, init, x);
    }
  }

  /** Filtering out an absent tool changes nothing. */
  lemma {:induction false} WithoutAbsent(s: seq<string>, x: string)
    requires x !in s
    ensures Without(s, x) == s
  {
    if s != [] {
      WithoutAbsent(s[..|s| - 1], x);
      assert s == s[..|s| - 1] + [s[|s| - 1]];
    }
  }

  /** Filtering a tool out of the middle of a list leaves the tools around it. */
  lemma {:induction false} WithoutMiddle(a: seq<string>, b: seq<string>, tool: string)
    requires tool !in a && tool !in b
    ensures Without(a + [tool] + b, tool) == a + b
    decreases |b|
  {
    var s := a + [tool] + b;
    if b == [] {
      assert s[..|s| - 1] == a;
      WithoutAbsent(a, tool);
    } else {
      var init := b[..|b| - 1];
      assert s[..|s| - 1] == a + [tool] + init;
      assert s[|s| - 1] == b[|b| - 1];
      WithoutMiddle(a, init, tool);
      assert a + init + [b[|b| - 1]] == a + b;
    }
  }

  /** Removing a tool keeps the others in their relative order. */
  lemma RemovalKeepsOrder(a: seq<string>, b: seq<string>, tool: string)
    requires tool !in a && tool !in b
    ensures ToggleTool(a + [tool] + b, tool) == a + b
  {
    assert (a + [tool] + b)[|a|] == tool;
    WithoutMiddle(a, b, tool);
  }

  /** Toggling an unselected tool twice gives the list back. */
  lemma {:induction false} ToggleTwiceRestores(prev: seq<string>, tool: string)
    requires tool !in prev
    ensures ToggleTool(ToggleTool(prev, tool), tool) == prev
  {
    WithoutAppend(prev, [tool], tool);
    WithoutAbsent(prev, tool);
    assert [tool][..0] == [];
  }

  /** The body posted to the agent endpoint. */
  datatype AgentBody = AgentBody(prompt: string, tools: Option<seq<string>>, model: string)

  /** What `handleChat` does: show an error and send nothing, or post a body. */
  datatype ChatAction = Rejected(error: string) | Send(body: AgentBody)

  /** `handleChat` up to the request: a prompt that trims to nothing is refused. */
  function HandleChat(prompt: string, tools: seq<string>): (a: ChatAction)
    ensures a.Send? ==> a.body.prompt == prompt && a.body.model == AgentChatModel
    ensures a.Send? ==> (a.body.tools.None? <==> tools == [])
    ensures a.Send? && a.body.tools.Some? ==> a.body.tools.value == tools
  {
    if Trim(prompt) == "" then Rejected(EmptyPromptError)
    else Send(AgentBody(prompt, if |tools| > 0 then Some(tools) else None, AgentChatModel))
  }

  /** The request is refused exactly when the prompt is blank. */
  lemma {:induction false} RejectedIffBlank(prompt: string, tools: seq<string>)
    ensures HandleChat(prompt, tools).Rejected? <==> IsBlank(prompt)
    ensures HandleChat(prompt, tools).Rejected? ==> HandleChat(prompt, tools).error == EmptyPromptError
  {
    TrimEmptyIffBlank(prompt);
  }
}

=== FILE: audio.dfy ===
/**
 * The audio router's generate endpoint: the voice choice, the first inline
 * payload of a text-to-speech response, its data URL, and the errors that
 * are answered with a placeholder instead of a failure.
 */
module AudioRouter {
  import opened Wrappers
  import opened Strings
  import opened Genai
  import opened Http
  import opened DataUrls
  import ImageRouter

  const AudioMime := "audio/mpeg"
  const PlaceholderAudioUrl := "https://example.com/generated-audio.mp3"

  datatype AudioRequest = AudioRequest(text: string, voice: Option<string>, model: Option<string>)

  datatype AudioReply = AudioReply(audioUrl: string, model: string)

  /** What `generate_content` receives: the model, the text as is, and the prebuilt voice of the speech config (the response modality is always AUDIO). */
  datatype SpeechCall = SpeechCall(model: Option<string>, contents: string, voice: Option<string>)

  /** The prebuilt voice requested: "default" means "Kore", anything else is passed on unchanged. */
  function VoiceName(voice: Option<string>): (v: Option<string>)
    ensures voice == Some("default") ==> v == Some("Kore")
    ensures voice != Some("default") ==> v == voice
  {
    if voice != Some("default") then voice else Some("Kore")
  }

  /** An SDK error taken to mean that speech generation is unavailable. */
  predicate IsTtsUnavailable(message: string) {
    Contains(message, "TTS") || Contains(AsciiLower(message), "audio")
  }

  /** "audio" is recognised whatever the case of its ASCII letters. */
  lemma {:induction false} AudioInAnyCase(message: string, word: string)
    requires AsciiLower(word) == "audio"
    requires Contains(message, word)
    ensures IsTtsUnavailable(message)
  {
    LowerKeepsContains(message, word);
  }

  lemma UpperCaseAudioIsUnavailable()
    ensures IsTtsUnavailable("Audio output is not supported")
  {
    var w := "Audio";
    assert AsciiLower(w) == "audio" by {
      assert LowerChar('A') == 'a';
    }
    assert StartsWith("Audio output is not supported", w);
    AudioInAnyCase("Audio output is not supported", w);
  }

  // ---------------------------------------------------------------------
  // Scanning a response for audio (first match)
  // ---------------------------------------------------------------------

  /** The payload of the first part that carries inline data, even when that payload is None. */
  function FirstBlobData(ps: seq<Part>): Option<Data> {
    if ps == [] then None
    else if ps[0].inlineData.Some? then ps[0].inlineData.value.data
    else FirstBlobData(ps[1..])
  }

  /** The first inline part decides, whatever follows it. */
  lemma {:induction false} FirstBlobWins(ps: seq<Part>, k: nat)
    requires k < |ps| && ps[k].inlineData.Some?
    requires forall j | 0 <= j < k :: ps[j].inlineData.None?
    ensures FirstBlobData(ps) == ps[k].inlineData.value.data
  {
    if k > 0 {
      assert forall j | 0 <= j < k - 1 :: ps[1..][j] == ps[j + 1];
      FirstBlobWins(ps[1..], k - 1);
    }
  }

  /** With two audio parts, the audio router keeps the first where the image router keeps the last. */
  lemma FirstMatchVersusLastWrite()
    ensures var ps := [Part(None, Some(Blob(None, Some(Bytes([1])))), Absent),
                       Part(None, Some(Blob(None, Some(Bytes([2])))), Absent)];
      FirstBlobData(ps) == Some(Bytes([1])) && ImageRouter.LastBlobData(ps) == Some(Bytes([2]))
  {
  }

  /** The loop over the located parts, stopping at the first inline part. */
  method ScanAudioParts(ps: seq<Part>) returns (data: Option<Data>)
    ensures data == FirstBlobData(ps)
  {
    data := None;
    var i := 0;
    while i < |ps|
      invariant 0 <= i <= |ps|
      invariant FirstBlobData(ps) == FirstBlobData(ps[i..])
    {
      assert ps[i..][1..] == ps[i + 1..];
      if ps[i].inlineData.Some? {
        data := ps[i].inlineData.value.data;
        break;
      }
      i := i + 1;
    }
  }

  // ---------------------------------------------------------------------
  // The URL and the endpoint
  // ---------------------------------------------------------------------

  /** The payload found in a response: candidates first, the flat parts only without candidates. */
  function AudioSearchOf(r: Response): Status<Option<Data>> {
    match PartsWithFallback(r)
    case NotIterable => ServerError(NoneAccess)
    case NotFound => Ok(None)
    case Scan(ps) => Ok(FirstBlobData(ps))
  }

  /**
   * The audio URL: the placeholder for a falsy payload, otherwise a data URL
   * of type "audio/mpeg" whatever type the part declared; encoding a
   * payload that is not bytes fails.
   */
  function AudioUrlFor(data: Option<Data>, b64: Encoder): (r: Status<string>)
    ensures !IsTruthy(data) ==> r == Ok(PlaceholderAudioUrl)
    ensures IsTruthy(data) && data.value.Bytes? ==> r == Ok(DataUrl(AudioMime, b64(data.value.bytes)))
    ensures IsTruthy(data) && !data.value.Bytes? ==> r == ServerError(NotBytes)
  {
    if !IsTruthy(data) then Ok(PlaceholderAudioUrl)
    else match data.value
      case Bytes(bs) => Ok(DataUrl(AudioMime, b64(bs)))
      case _ => ServerError(NotBytes)
  }

  /** generate_audio once the SDK has replied. */
  function AudioOutcome(req: AudioRequest, reply: Reply, b64: Encoder): Status<AudioReply> {
    match reply
    case Raised(msg) =>
      if !IsTtsUnavailable(msg) then ServerError(Upstream(msg))
      else if req.model.None? then ServerError(InvalidReplyField)
      else Ok(AudioReply(PlaceholderAudioUrl, req.model.value))
    case Returned(r) =>
      match AudioSearchOf(r)
      case Ok(data) =>
        (match AudioUrlFor(data, b64)
         case Ok(url) => if req.model.None? then ServerError(InvalidReplyField) else Ok(AudioReply(url, req.model.value))
         case BadRequest(d) => BadRequest(d)
         case ServerError(c) => ServerError(c))
      case BadRequest(d) => BadRequest(d)
      case ServerError(c) => ServerError(c)
  }

  /** A returned URL is the placeholder or reads back as an "audio/mpeg" data URL. */
  lemma {:induction false} AudioUrlShape(req: AudioRequest, reply: Reply, b64: Encoder)
    requires AudioOutcome(req, reply, b64).Ok?
    ensures var u := AudioOutcome(req, reply, b64).value.audioUrl;
      u == PlaceholderAudioUrl || (ParseDataUrl(u).Some? && ParseDataUrl(u).value.0 == AudioMime)
  {
    var u := AudioOutcome(req, reply, b64).value.audioUrl;
    if u != PlaceholderAudioUrl {
      var data := AudioSearchOf(reply.response).value;
      ParseBuiltDataUrl(AudioMime, b64(data.value.bytes));
    }
  }

  /** A part with the MIME type it declares for its inline data erased. */
  function MimeErasedPart(p: Part): Part {
    if p.inlineData.Some? then p.(inlineData := Some(p.inlineData.value.(mimeType := None))) else p
  }

  function MimeErasedParts(ps: seq<Part>): (qs: seq<Part>)
    ensures |qs| == |ps|
  {
    if ps == [] then [] else [MimeErasedPart(ps[0])] + MimeErasedParts(ps[1..])
  }

  function MimeErasedCandidate(c: Candidate): Candidate {
    if c.content.Some? && c.content.value.parts.Some?
    then Candidate(Some(Content(Some(MimeErasedParts(c.content.value.parts.value)))))
    else c
  }

  /** A response with every declared MIME type erased, in the candidates and in the flat parts. */
  function MimeErased(r: Response): Response {
    r.(candidates := seq(|r.candidates|, i requires 0 <= i < |r.candidates| => MimeErasedCandidate(r.candidates[i])),
       parts := if r.parts.Has? then Has(MimeErasedParts(r.parts.value)) else r.parts)
  }

  lemma {:induction false} FirstBlobIgnoresMime(ps: seq<Part>)
    ensures FirstBlobData(MimeErasedParts(ps)) == FirstBlobData(ps)
  {
    if ps != [] {
      assert MimeErasedParts(ps)[1..] == MimeErasedParts(ps[1..]);
      FirstBlobIgnoresMime(ps[1..]);
    }
  }

  lemma {:induction false} SearchIgnoresMime(r: Response)
    ensures AudioSearchOf(MimeErased(r)) == AudioSearchOf(r)
  {
    var e := MimeErased(r);
    if r.candidates != [] {
      assert e.candidates[0] == MimeErasedCandidate(r.candidates[0]);
      if FirstCandidateParts(r).Scan? {
        FirstBlobIgnoresMime(FirstCandidateParts(r).parts);
      }
    } else if r.parts.Has? {
      FirstBlobIgnoresMime(r.parts.value);
    }
  }

  /**
   * Two responses that differ only in the MIME types their parts declare
   * get the same answer: the URL is always typed "audio/mpeg".
   */
  lemma {:induction false} DeclaredMimeIgnored(req: AudioRequest, r1: Response, r2: Response, b64: Encoder)
    requires MimeErased(r1) == MimeErased(r2)
    ensures AudioOutcome(req, Returned(r1), b64) == AudioOutcome(req, Returned(r2), b64)
  {
    SearchIgnoresMime(r1);
    SearchIgnoresMime(r2);
  }

  /** An error that names TTS or audio gives the placeholder; any other error is a 500 with its message. */
  lemma ErrorClassification(req: AudioRequest, msg: string, b64: Encoder)
    requires req.model.Some?
    ensures IsTtsUnavailable(msg) ==> AudioOutcome(req, Raised(msg), b64) == Ok(AudioReply(PlaceholderAudioUrl, req.model.value))
    ensures !IsTtsUnavailable(msg) ==> AudioOutcome(req, Raised(msg), b64) == ServerError(Upstream(msg))
  {
  }

  /**
   * generate_audio: the text goes unchanged to the requested model with the
   * chosen voice, and the answer follows once the SDK has replied.
   */
  method GenerateAudio(req: AudioRequest, reply: Reply, b64: Encoder) returns (sent: SpeechCall, res: Status<AudioReply>)
    ensures sent.model == req.model && sent.contents == req.text
    ensures req.voice == Some("default") ==> sent.voice == Some("Kore")
    ensures req.voice != Some("default") ==> sent.voice == req.voice
    ensures res == AudioOutcome(req, reply, b64)
    ensures res.Ok? ==> res.value.model == req.model.value
  {
    sent := SpeechCall(req.model, req.text, VoiceName(req.voice));
    if reply.Raised? {
      if !IsTtsUnavailable(reply.message) {
        return sent, ServerError(Upstream(reply.message));
      }
      if req.model.None? {
        return sent, ServerError(InvalidReplyField);
      }
      return sent, Ok(AudioReply(PlaceholderAudioUrl, req.model.value));
    }
    var r := reply.response;
    var data: Option<Data> := None;
    match PartsWithFallback(r) {
      case NotIterable => return sent, ServerError(NoneAccess);
      case NotFound =>
      case Scan(ps) => data := ScanAudioParts(ps);
    }
    var url: string;
    if data.Some? && IsTruthy(data) {
      match data.value {
        case Bytes(bs) => url := DataUrl(AudioMime, b64(bs));
        case _ => return sent, ServerError(NotBytes);
      }
    } else {
      url := PlaceholderAudioUrl;
    }
    if req.model.None? {
      return sent, ServerError(InvalidReplyField);
    }
    res := Ok(AudioReply(url, req.model.value));
  }
}

=== FILE: client.dfy ===
/**
 * The frontend API client's base URL: the configured URL with an "/api"
 * suffix, or the local backend when none is configured.
 */
module ApiClient {
  import opened Wrappers
  import opened Strings

  const ApiSuffix := "/api"
  const DefaultBaseUrl := "http://localhost:8800/api"

  /** The URL itself when it already ends with "/api", otherwise the URL with "/api" appended. */
  function WithApiSuffix(u: string): (r: string)
    ensures EndsWith(r, ApiSuffix)
    ensures EndsWith(u, ApiSuffix) ==> r == u
    ensures !EndsWith(u, ApiSuffix) ==> r == u + ApiSuffix
  {
    if EndsWith(u, ApiSuffix) then u
    else
      assert (u + ApiSuffix)[|u|..] == ApiSuffix;
      u + ApiSuffix
  }

  /** A configured URL counts when it is defined, non-empty and not blank once trimmed. */
  predicate IsConfigured(env: Option<string>) {
    env.Some? && env.value != "" && Trim(env.value) != ""
  }

  /** `getBaseURL`, for the build-time `VITE_API_URL` and whether a `window` exists. */
  function GetBaseUrl(env: Option<string>, inBrowser: bool): (r: string)
    ensures EndsWith(r, ApiSuffix)
  {
    if inBrowser then
      if IsConfigured(env) then WithApiSuffix(env.value) else DefaultBaseUrl
    else
      if IsConfigured(env) then WithApiSuffix(env.value) else DefaultBaseUrl
  }

  lemma DefaultEndsWithApi()
    ensures EndsWith(DefaultBaseUrl, ApiSuffix)
  {
    assert DefaultBaseUrl[|DefaultBaseUrl| - 4..] == ApiSuffix;
  }

  /** The browser and non-browser branches agree. */
  lemma SameInAndOutOfBrowser(env: Option<string>)
    ensures GetBaseUrl(env, true) == GetBaseUrl(env, false)
  {
  }

  /** Applying the suffix rule to a base URL changes nothing. */
  lemma {:induction false} SuffixRuleIdempotent(env: Option<string>, inBrowser: bool)
    ensures WithApiSuffix(GetBaseUrl(env, inBrowser)) == GetBaseUrl(env, inBrowser)
  {
    DefaultEndsWithApi();
  }

  /** An undefined or blank URL gives the local backend; any other gets the suffix rule, untrimmed. */
  lemma {:induction false} BlankMeansDefault(env: Option<string>, inBrowser: bool)
    ensures env.None? || IsBlank(env.value) ==> GetBaseUrl(env, inBrowser) == DefaultBaseUrl
    ensures env.Some? && !IsBlank(env.value) ==> GetBaseUrl(env, inBrowser) == WithApiSuffix(env.value)
  {
    if env.Some? {
      TrimEmptyIffBlank(env.value);
    }
  }

  /** Surrounding whitespace stays: a configured URL is a prefix of the result. */
  lemma {:induction false} WhitespaceKept(u: string, inBrowser: bool)
    requires !IsBlank(u)
    ensures StartsWith(GetBaseUrl(Some(u), inBrowser), u)
  {
    BlankMeansDefault(Some(u), inBrowser);
    assert (u + ApiSuffix)[..|u|] == u;
  }
}

=== FILE: data_url.dfy ===
/**
 * The base64 form of a `data:` URL (section 3 of RFC 2397),
 * `data:<mime>;base64,<payload>`, as the image and audio routers build it,
 * and the reading back that shows no information is lost.
 */
module DataUrls {
  import opened Wrappers
  import opened Strings

  const Scheme := "data:"
  const Base64Marker := ";base64,"

  function DataUrl(mime: string, payload: string): (u: string)
    ensures StartsWith(u, Scheme)
    ensures |u| == |Scheme| + |mime| + |Base64Marker| + |payload|
  {
    Scheme + mime + Base64Marker + payload
  }

  /** The first index of `c` in `s`. */
  function IndexOf(s: string, c: char): (r: Option<nat>)
    ensures r.None? <==> c !in s
    ensures r.Some? ==> r.value < |s| && s[r.value] == c && c !in s[..r.value]
  {
    if s == [] then None
    else if s[0] == c then Some(0)
    else match IndexOf(s[1..], c)
      case None => None
      case Some(k) => assert s[1..][..k] == s[1..k + 1]; Some(k + 1)
  }

  /** Splits a base64 data URL into its media type (up to the first ';') and payload. */
  function ParseDataUrl(u: string): Option<(string, string)> {
    if !StartsWith(u, Scheme) then None
    else
      var rest := u[|Scheme|..];
      match IndexOf(rest, ';')
      case None => None
      case Some(k) =>
        if StartsWith(rest[k..], Base64Marker) then Some((rest[..k], rest[k + |Base64Marker|..])) else None
  }

  /** Reading back a built URL gives its parts again, whenever the media type has no ';'. */
  lemma {:induction false} ParseBuiltDataUrl(mime: string, payload: string)
    requires ';' !in mime
    ensures ParseDataUrl(DataUrl(mime, payload)) == Some((mime, payload))
  {
    var u := DataUrl(mime, payload);
    var rest := u[|Scheme|..];
    assert rest == mime + Base64Marker + payload;
    assert rest[|mime|] == ';';
    assert rest[..|mime|] == mime;
    assert IndexOf(rest, ';') == Some(|mime|);
    assert rest[|mime|..][..|Base64Marker|] == Base64Marker;
    assert rest[|mime| + |Base64Marker|..] == payload;
  }

  /** Whatever reads back was built from what it reads back to. */
  lemma {:induction false} ParsedDataUrlIsBuilt(u: string, mime: string, payload: string)
    requires ParseDataUrl(u) == Some((mime, payload))
    ensures u == DataUrl(mime, payload)
    ensures ';' !in mime
  {
    assert StartsWith(u, Scheme);
    var rest := u[|Scheme|..];
    var k := IndexOf(rest, ';').value;
    var tail := rest[k..];
    assert StartsWith(tail, Base64Marker);
    assert mime == rest[..k];
    assert payload == tail[|Base64Marker|..];
    Rejoin(u, |Scheme|);
    Rejoin(rest, k);
    Rejoin(tail, |Base64Marker|);
    assert u == Scheme + (mime + (Base64Marker + payload));
    Regroup(Scheme, mime, Base64Marker, payload);
  }

  /** A sequence is its prefix followed by the rest. */
  lemma Rejoin(s: string, k: nat)
    requires k <= |s|
    ensures s == s[..k] + s[k..]
  {
  }

  /** Concatenation of four pieces does not depend on grouping. */
  lemma Regroup(a: string, b: string, c: string, d: string)
    ensures a + (b + (c + d)) == a + b + c + d
  {
  }
}

=== FILE: document.dfy ===
/**
 * The document router: the MIME type sent for an uploaded document, chosen
 * from its content type and its file name's suffix, and the order of the
 * request's parts.
 */
module DocumentRouter {
  import opened Wrappers
  import opened Strings
  import opened Genai
  import opened Http

  const PdfMime := "application/pdf"
  const DocxMime := "application/vnd.openxmlformats-officedocument.wordprocessingml.document"
  const TextMime := "text/plain"

  /** The MIME type sent for an upload: a recognised suffix decides, otherwise the content type or PDF. */
  function DocumentMime(f: Upload): (m: string)
    ensures m != ""
    ensures Truthy(f.filename) && EndsWith(f.filename.value, ".pdf") ==> m == PdfMime
    ensures Truthy(f.filename) && EndsWith(f.filename.value, ".docx") ==> m == DocxMime
    ensures Truthy(f.filename) && EndsWith(f.filename.value, ".txt") ==> m == TextMime
    ensures !Truthy(f.filename) || !(EndsWith(f.filename.value, ".pdf") || EndsWith(f.filename.value, ".docx") || EndsWith(f.filename.value, ".txt"))
      ==> m == UploadMime(f, PdfMime)
  {
    SuffixesExclusive(if f.filename.Some? then f.filename.value else "");
    var base := UploadMime(f, PdfMime);
    if Truthy(f.filename) then
      var name := f.filename.value;
      if EndsWith(name, ".pdf") then PdfMime
      else if EndsWith(name, ".docx") then DocxMime
      else if EndsWith(name, ".txt") then TextMime
      else base
    else base
  }

  /** At most one of the three suffixes matches, so the order of the tests does not matter. */
  lemma SuffixesExclusive(name: string)
    ensures !(EndsWith(name, ".pdf") && EndsWith(name, ".docx"))
    ensures !(EndsWith(name, ".pdf") && EndsWith(name, ".txt"))
    ensures !(EndsWith(name, ".docx") && EndsWith(name, ".txt"))
  {
    if EndsWith(name, ".pdf") { assert name[|name| - 1] == ".pdf"[3]; }
    if EndsWith(name, ".docx") { assert name[|name| - 1] == ".docx"[4]; }
    if EndsWith(name, ".txt") { assert name[|name| - 1] == ".txt"[3]; }
  }

  /** Suffix matching is case-sensitive: an upper-case suffix leaves the declared type. */
  lemma UpperCaseSuffixNotRecognised(bytes: seq<byte>)
    ensures DocumentMime(Upload(Some("application/octet-stream"), Some("REPORT.PDF"), bytes)) == "application/octet-stream"
  {
    assert "REPORT.PDF"[9] != ".pdf"[3];
    assert "REPORT.PDF"[9] != ".docx"[4];
    assert "REPORT.PDF"[9] != ".txt"[3];
  }

  /** analyze_document's request parts: the prompt first, then the document inline. */
  function DocumentParts(prompt: string, f: Upload, b64: Encoder): (parts: seq<RequestPart>)
    ensures |parts| == 2
    ensures parts[0] == TextPart(prompt)
    ensures parts[1] == InlinePart(DocumentMime(f), b64(f.bytes))
  {
    [TextPart(prompt), InlinePart(DocumentMime(f), b64(f.bytes))]
  }

  datatype DocumentReply = DocumentReply(analysis: string, model: string, pageCount: Option<int>)

  /** analyze_document once the SDK has replied: the page count is never filled in. */
  function DocumentOutcome(model: Option<string>, reply: Reply): (r: Status<DocumentReply>)
    ensures reply.Raised? ==> r == ServerError(Upstream(reply.message))
    ensures r.Ok? <==> reply.Returned? && reply.response.text.Some? && model.Some?
    ensures r.Ok? ==> r.value == DocumentReply(reply.response.text.value, model.value, None)
  {
    match reply
    case Raised(msg) => ServerError(Upstream(msg))
    case Returned(r) =>
      if r.text.None? || model.None? then ServerError(InvalidReplyField)
      else Ok(DocumentReply(r.text.value, model.value, None))
  }
}

=== FILE: embedding.dfy ===
/**
 * The embedding router: where a single embedding is found in the SDK's
 * reply and the check that it is not empty, and the per-item vectors and
 * dimensions of a batch. Vector elements are floats the router never
 * computes with, so their type is a parameter `V`.
 */
module EmbeddingRouter {
  import opened Wrappers
  import opened Http

  /** One `ContentEmbedding`: its `values` attribute. */
  datatype ContentEmbedding<V> = ContentEmbedding(values: Attr<seq<V>>)

  /** `response.embedding`: an object with a `values` attribute, or a vector with none. */
  datatype EmbeddingField<V> = HasValues(values: Option<seq<V>>) | Itself(vector: seq<V>)

  /** What `embed_content` returned: a response object, or a plain list of items. */
  datatype EmbedReply<V> =
    | EmbedResponse(embeddings: Attr<seq<ContentEmbedding<V>>>, embedding: Attr<EmbeddingField<V>>, values: Attr<seq<V>>)
    | EmbedList(items: seq<ContentEmbedding<V>>)

  /** The SDK call returned or raised. */
  datatype Outcome<V> = Embedded(reply: EmbedReply<V>) | Failed(message: string)

  datatype EmbeddingReply<V> = EmbeddingReply(embedding: seq<V>, model: string, dimensions: nat)

  datatype BatchReply<V> = BatchReply(embeddings: seq<seq<V>>, model: string, dimensions: nat)

  // ---------------------------------------------------------------------
  // A single embedding
  // ---------------------------------------------------------------------

  /** `if not embedding: raise ValueError(...)`: a missing or empty vector is refused. */
  function Checked<V>(v: Option<seq<V>>): (r: Status<seq<V>>)
    ensures r.Ok? <==> v.Some? && |v.value| > 0
    ensures r.Ok? ==> r.value == v.value
    ensures !r.Ok? ==> r == ServerError(EmbeddingNotFound)
  {
    if v.None? || |v.value| == 0 then ServerError(EmbeddingNotFound) else Ok(v.value)
  }

  /** The first test of the chain applies: `embeddings` exists and is a non-empty list. */
  predicate FirstItemStep<V>(reply: EmbedReply<V>) {
    reply.EmbedResponse? && reply.embeddings.Has? && |reply.embeddings.value| > 0
  }

  /** The first test fails without raising, so the later tests are reached. */
  predicate LaterStep<V>(reply: EmbedReply<V>) {
    reply.EmbedResponse? && !reply.embeddings.Null? && !FirstItemStep(reply)
  }

  /** The candidate value of `response.embedding`: its `values`, or the field itself, None when it holds None. */
  function FieldVector<V>(f: Attr<EmbeddingField<V>>): Option<seq<V>>
    requires !f.Absent?
  {
    match f
    case Null => None
    case Has(HasValues(vs)) => vs
    case Has(Itself(v)) => Some(v)
  }

  /**
   * The if/elif chain of generate_embedding: `embeddings[0].values` when the
   * list is non-empty, else `embedding` (its values, or itself), else
   * `values`, else nothing; a missing or empty vector is refused.
   */
  function SingleEmbedding<V>(reply: EmbedReply<V>): (r: Status<seq<V>>)
    ensures r.Ok? ==> |r.value| > 0
    ensures !r.BadRequest?
    ensures reply.EmbedList? ==> r == ServerError(EmbeddingNotFound)
    // `len(None)`: the `embeddings` attribute holds None
    ensures reply.EmbedResponse? && reply.embeddings.Null? ==> r == ServerError(NoneAccess)
    // the first step: `embeddings[0].values`
    ensures FirstItemStep(reply) && reply.embeddings.value[0].values.Absent? ==> r == ServerError(NoneAccess)
    ensures FirstItemStep(reply) && !reply.embeddings.value[0].values.Absent?
      ==> r == Checked(ItemVector(reply.embeddings.value[0]))
    // the second step: `embedding`, its values or itself
    ensures LaterStep(reply) && !reply.embedding.Absent? ==> r == Checked(FieldVector(reply.embedding))
    // the third step: `values`
    ensures LaterStep(reply) && reply.embedding.Absent? && !reply.values.Absent?
      ==> r == Checked(if reply.values.Has? then Some(reply.values.value) else None)
    // nothing found
    ensures LaterStep(reply) && reply.embedding.Absent? && reply.values.Absent? ==> r == ServerError(EmbeddingNotFound)
  {
    match reply
    case EmbedList(_) => ServerError(EmbeddingNotFound)
    case EmbedResponse(embeddings, embedding, values) =>
      if embeddings.Null? then ServerError(NoneAccess)
      else
        var found: Status<Option<seq<V>>> :=
          if embeddings.Has? && |embeddings.value| > 0 then
            match embeddings.value[0].values
            case Absent => ServerError(NoneAccess)
            case Null => Ok(None)
            case Has(vs) => Ok(Some(vs))
          else if !embedding.Absent? then Ok(FieldVector(embedding))
          else if !values.Absent? then Ok(if values.Has? then Some(values.value) else None)
          else Ok(Some([]));
        match found
        case Ok(v) => if v.None? || |v.value| == 0 then ServerError(EmbeddingNotFound) else Ok(v.value)
        case _ => ServerError(NoneAccess)
  }

  /** An empty `embeddings` list is passed over: the `embedding` attribute is tried next. */
  lemma EmptyEmbeddingsFallThrough<V>(embedding: Attr<EmbeddingField<V>>, values: Attr<seq<V>>, v: seq<V>)
    requires |v| > 0 && embedding == Has(Itself(v))
    ensures SingleEmbedding(EmbedResponse(Has([]), embedding, values)) == Ok(v)
  {
  }

  /** `embedding` is preferred to `values`, and its `values` to the field itself. */
  lemma EmbeddingBeforeValues<V>(vs: seq<V>, other: Attr<seq<V>>)
    requires |vs| > 0
    ensures SingleEmbedding(EmbedResponse(Absent, Has(HasValues(Some(vs))), other)) == Ok(vs)
    ensures SingleEmbedding(EmbedResponse(Absent, Has(Itself(vs)), other)) == Ok(vs)
  {
  }

  /** With no attribute at all, nothing is found. */
  lemma NothingFound<V>()
    ensures SingleEmbedding<V>(EmbedResponse(Absent, Absent, Absent)) == ServerError(EmbeddingNotFound)
  {
  }

  /** generate_embedding once the SDK has replied: the dimensions are the length of the vector returned. */
  function SingleOutcome<V>(model: Option<string>, outcome: Outcome<V>): (r: Status<EmbeddingReply<V>>)
    ensures r.Ok? ==> r.value.dimensions == |r.value.embedding| > 0
    ensures r.Ok? ==> outcome.Embedded? && SingleEmbedding(outcome.reply) == Ok(r.value.embedding)
    ensures outcome.Embedded? && SingleEmbedding(outcome.reply).ServerError? ==> r == ServerError(SingleEmbedding(outcome.reply).cause)
    ensures outcome.Failed? ==> r == ServerError(Upstream(outcome.message))
    ensures outcome.Embedded? && SingleEmbedding(outcome.reply).Ok? && model.Some? ==>
      r == Ok(EmbeddingReply(SingleEmbedding(outcome.reply).value, model.value, |SingleEmbedding(outcome.reply).value|))
  {
    match outcome
    case Failed(msg) => ServerError(Upstream(msg))
    case Embedded(reply) =>
      match SingleEmbedding(reply)
      case Ok(v) => if model.None? then ServerError(InvalidReplyField) else Ok(EmbeddingReply(v, model.value, |v|))
      case BadRequest(d) => BadRequest(d)
      case ServerError(c) => ServerError(c)
  }

  // ---------------------------------------------------------------------
  // A batch
  // ---------------------------------------------------------------------

  /** An item's vector: `[]` without a `values` attribute, None when the attribute holds None. */
  function ItemVector<V>(ce: ContentEmbedding<V>): Option<seq<V>> {
    match ce.values
    case Absent => Some([])
    case Null => None
    case Has(vs) => Some(vs)
  }

  /** The loop over a list of items: one vector per item, in order. */
  method CollectVectors<V>(items: seq<ContentEmbedding<V>>) returns (vs: seq<Option<seq<V>>>)
    ensures |vs| == |items|
    ensures forall i | 0 <= i < |items| :: vs[i] == ItemVector(items[i])
  {
    vs := [];
    for i := 0 to |items|
      invariant |vs| == i
      invariant forall j | 0 <= j < i :: vs[j] == ItemVector(items[j])
    {
      var v: Option<seq<V>>;
      match items[i].values {
        case Has(values) => v := Some(values);
        case Null => v := None;
        case Absent => v := Some([]);
      }
      vs := vs + [v];
    }
  }

  /** The vectors of a batch reply: the holder's items, a list's items, or else the reply itself as one item. */
  function BatchItems<V>(reply: EmbedReply<V>): Status<seq<ContentEmbedding<V>>> {
    match reply
    case EmbedList(items) => Ok(items)
    case EmbedResponse(embeddings, _, values) =>
      match embeddings
      case Has(items) => Ok(items)
      case Null => ServerError(NoneAccess)
      case Absent => Ok([ContentEmbedding(values)])
  }

  /** Every vector is present (none holds None). */
  predicate AllPresent<V>(vs: seq<Option<seq<V>>>) {
    forall i | 0 <= i < |vs| :: vs[i].Some?
  }

  function Unwrap<V>(vs: seq<Option<seq<V>>>): (r: seq<seq<V>>)
    requires AllPresent(vs)
    ensures |r| == |vs| && forall i | 0 <= i < |vs| :: r[i] == vs[i].value
  {
    seq(|vs|, i requires 0 <= i < |vs| => vs[i].value)
  }

  /** The batch's dimensions: the length of the first vector, or 0 without vectors. */
  function BatchDimensions<V>(vs: seq<seq<V>>): nat {
    if |vs| > 0 then |vs[0]| else 0
  }

  /** generate_batch_embeddings once the SDK has replied. */
  function BatchOutcome<V>(model: Option<string>, outcome: Outcome<V>): Status<BatchReply<V>> {
    match outcome
    case Failed(msg) => ServerError(Upstream(msg))
    case Embedded(reply) =>
      match BatchItems(reply)
      case Ok(items) =>
        var vs := seq(|items|, i requires 0 <= i < |items| => ItemVector(items[i]));
        if |vs| > 0 && vs[0].None? then ServerError(NoneAccess)
        else if !AllPresent(vs) || model.None? then ServerError(InvalidReplyField)
        else Ok(BatchReply(Unwrap(vs), model.value, BatchDimensions(Unwrap(vs))))
      case BadRequest(d) => BadRequest(d)
      case ServerError(c) => ServerError(c)
  }

  /** One vector per item, in order, `[]` for an item without values; the dimensions follow the first. */
  lemma {:induction false} BatchPerItem<V>(model: Option<string>, reply: EmbedReply<V>)
    requires BatchOutcome(model, Embedded(reply)).Ok?
    ensures BatchItems(reply).Ok?
    ensures var items := BatchItems(reply).value;
      var out := BatchOutcome(model, Embedded(reply)).value;
      && |out.embeddings| == |items|
      && (forall i | 0 <= i < |items| :: items[i].values.Absent? ==> out.embeddings[i] == [])
      && (forall i | 0 <= i < |items| :: items[i].values.Has? ==> out.embeddings[i] == items[i].values.value)
      && out.dimensions == (if |items| == 0 then 0 else |out.embeddings[0]|)
  {
    var items := BatchItems(reply).value;
    var vs := seq(|items|, i requires 0 <= i < |items| => ItemVector(items[i]));
    assert forall i | 0 <= i < |items| :: vs[i] == ItemVector(items[i]);
  }

  /** A reply that is neither an embeddings holder nor a list gives exactly one vector: its own values. */
  lemma SingleReplyGivesOneVector<V>(model: string, values: Attr<seq<V>>, embedding: Attr<EmbeddingField<V>>)
    requires !values.Null?
    ensures var out := BatchOutcome(Some(model), Embedded(EmbedResponse(Absent, embedding, values)));
      out.Ok? && |out.value.embeddings| == 1
      && out.value.embeddings[0] == (if values.Has? then values.value else [])
  {
  }

  /** generate_batch_embeddings, once the SDK has replied. */
  method GenerateBatchEmbeddings<V>(model: Option<string>, outcome: Outcome<V>) returns (res: Status<BatchReply<V>>)
    ensures res == BatchOutcome(model, outcome)
  {
    if outcome.Failed? {
      return ServerError(Upstream(outcome.message));
    }
    var items: seq<ContentEmbedding<V>>;
    match BatchItems(outcome.reply) {
      case Ok(found) => items := found;
      case BadRequest(d) => return BadRequest(d);
      case ServerError(c) => return ServerError(c);
    }
    var vs := CollectVectors(items);
    assert vs == seq(|items|, i requires 0 <= i < |items| => ItemVector(items[i]));
    if |vs| > 0 && vs[0].None? {
      return ServerError(NoneAccess);
    }
    if !AllPresent(vs) || model.None? {
      return ServerError(InvalidReplyField);
    }
    var embeddings := Unwrap(vs);
    var dimensions := if |embeddings| > 0 then |embeddings[0]| else 0;
    res := Ok(BatchReply(embeddings, model.value, dimensions));
  }
}

=== FILE: function_calling.dfy ===
/**
 * The function-calling router: one declaration per requested function, the
 * calls read back from a response (from `function_calls` when it is
 * non-empty, from the first candidate's parts otherwise), the arguments
 * normalised to a plain table, and the text returned only when no call was.
 */
module FunctionCallingRouter {
  import opened Wrappers
  import opened Genai
  import opened Http

  datatype FunctionDefinition = FunctionDefinition(name: string, description: string, parameters: JsonMap)

  /** `types.FunctionDeclaration(name, description, parameters_json_schema)`. */
  datatype FunctionDeclaration = FunctionDeclaration(name: string, description: string, parametersJsonSchema: JsonMap)

  datatype CallingRequest = CallingRequest(prompt: string, functions: seq<FunctionDefinition>, model: Option<string>)

  /** One call in the reply: a name and its arguments. */
  datatype Call = Call(name: string, arguments: JsonMap)

  datatype CallingReply = CallingReply(functionCalls: seq<Call>, text: Option<string>, model: string)

  // ---------------------------------------------------------------------
  // Declarations
  // ---------------------------------------------------------------------

  function DeclarationOf(f: FunctionDefinition): FunctionDeclaration {
    FunctionDeclaration(f.name, f.description, f.parameters)
  }

  /** The loop over `request.functions`: exactly one declaration per function, in order, fields passed through. */
  method BuildDeclarations(functions: seq<FunctionDefinition>) returns (decls: seq<FunctionDeclaration>)
    ensures |decls| == |functions|
    ensures forall i | 0 <= i < |functions| ::
      && decls[i].name == functions[i].name
      && decls[i].description == functions[i].description
      && decls[i].parametersJsonSchema == functions[i].parameters
  {
    decls := [];
    for i := 0 to |functions|
      invariant |decls| == i
      invariant forall j | 0 <= j < i :: decls[j] == DeclarationOf(functions[j])
    {
      decls := decls + [DeclarationOf(functions[i])];
    }
  }

  // ---------------------------------------------------------------------
  // Arguments
  // ---------------------------------------------------------------------

  /**
   * The arguments table of a call: a dict is taken as is; another object
   * gives its `model_dump()` in preference to its `__dict__`; without an
   * `args` attribute, with None, or with neither method, it is `{}`. It
   * never fails.
   */
  function NormalizeArgs(a: Attr<ArgsValue>): (m: JsonMap)
    ensures a.Has? && a.value.ArgsDict? ==> m == a.value.entries
    ensures a.Has? && a.value.ArgsObject? && a.value.dump.Some? ==> m == a.value.dump.value
    ensures a.Has? && a.value.ArgsObject? && a.value.dump.None? && a.value.fields.Some? ==> m == a.value.fields.value
    ensures !(a.Has? && (a.value.ArgsDict? || a.value.dump.Some? || a.value.fields.Some?)) ==> m == map[]
  {
    match a
    case Has(ArgsDict(entries)) => entries
    case Has(ArgsObject(Some(dump), _)) => dump
    case Has(ArgsObject(None, Some(fields))) => fields
    case _ => map[]
  }

  /** The priority chain as the router's loops run it, reassigning the table step by step. */
  method ArgsTable(a: Attr<ArgsValue>) returns (m: JsonMap)
    ensures m == NormalizeArgs(a)
  {
    m := map[];
    if a.Has? {
      var args := a.value;
      if args.ArgsDict? {
        m := args.entries;
      } else if args.dump.Some? {
        m := args.dump.value;
      } else if args.fields.Some? {
        m := args.fields.value;
      }
    }
  }

  // ---------------------------------------------------------------------
  // The `function_calls` path
  // ---------------------------------------------------------------------

  /** Some entry's name attribute holds None, which the reply model refuses. */
  predicate SomeNameIsNull(fcs: seq<FunctionCall>) {
    exists i | 0 <= i < |fcs| :: fcs[i].name.Null?
  }

  /** The calls of the entries that have a name attribute, in order, duplicates kept. */
  function ShortcutCallsOf(fcs: seq<FunctionCall>): seq<Call> {
    if fcs == [] then []
    else
      var fc := fcs[|fcs| - 1];
      ShortcutCallsOf(fcs[..|fcs| - 1]) + (if fc.name.Has? then [Call(fc.name.value, NormalizeArgs(fc.args))] else [])
  }

  function ShortcutCalls(fcs: seq<FunctionCall>): Status<seq<Call>> {
    if SomeNameIsNull(fcs) then ServerError(InvalidReplyField) else Ok(ShortcutCallsOf(fcs))
  }

  /** The calls of a concatenation are the calls of each half, in order. */
  lemma {:induction false} ShortcutCallsAppend(a: seq<FunctionCall>, b: seq<FunctionCall>)
    ensures ShortcutCallsOf(a + b) == ShortcutCallsOf(a) + ShortcutCallsOf(b)
    decreases |b|
  {
    if b == [] {
      assert a + b == a;
    } else {
      var init := b[..|b| - 1];
      assert (a + b)[..|a + b| - 1] == a + init;
      assert (a + b)[|a + b| - 1] == b[|b| - 1];
      ShortcutCallsAppend(a, init);
    }
  }

  /** Each named entry gives exactly one call, so the call count is the count of named entries. */
  lemma {:induction false} ShortcutCallsCount(fcs: seq<FunctionCall>)
    requires forall i | 0 <= i < |fcs| :: fcs[i].name.Has?
    ensures |ShortcutCallsOf(fcs)| == |fcs|
    ensures forall i | 0 <= i < |fcs| :: ShortcutCallsOf(fcs)[i] == Call(fcs[i].name.value, NormalizeArgs(fcs[i].args))
  {
    if fcs != [] {
      var init := fcs[..|fcs| - 1];
      assert forall i | 0 <= i < |init| :: init[i] == fcs[i];
      ShortcutCallsCount(init);
    }
  }

  /** The `function_calls` loop: an entry without a name is skipped, a None name fails the reply. */
  method ExtractShortcutCalls(fcs: seq<FunctionCall>) returns (res: Status<seq<Call>>)
    ensures res == ShortcutCalls(fcs)
  {
    var calls: seq<Call> := [];
    for i := 0 to |fcs|
      invariant calls == ShortcutCallsOf(fcs[..i])
      invariant forall j | 0 <= j < i :: !fcs[j].name.Null?
    {
      assert fcs[..i + 1][..i] == fcs[..i];
      var fc := fcs[i];
      if fc.name.Null? {
        return ServerError(InvalidReplyField);
      }
      if fc.name.Has? {
        var args := ArgsTable(fc.args);
        calls := calls + [Call(fc.name.value, args)];
      }
    }
    assert fcs[..|fcs|] == fcs;
    res := Ok(calls);
  }

  // ---------------------------------------------------------------------
  // The candidate-parts path
  // ---------------------------------------------------------------------

  /** Some part's call has a name attribute holding None, which the reply model refuses. */
  predicate SomePartNameIsNull(ps: seq<Part>) {
    exists i | 0 <= i < |ps| :: ps[i].functionCall.Has? && ps[i].functionCall.value.name.Null?
  }

  /** A call read from a part: its name, or `str(fc)` when it has no name attribute. */
  function PartCallOf(fc: FunctionCall): Call {
    Call(if fc.name.Has? then fc.name.value else fc.repr, NormalizeArgs(fc.args))
  }

  /**
   * The parts path as written: every part that has a `function_call`
   * attribute gives a call, and a part whose attribute holds None (every
   * text part) gives the call named "None" with no arguments.
   */
  function PartCallsAsWritten(ps: seq<Part>): (cs: seq<Call>)
    ensures |cs| <= |ps|
    ensures (forall i | 0 <= i < |ps| :: !ps[i].functionCall.Absent?) ==> |cs| == |ps|
  {
    if ps == [] then []
    else
      var last := match ps[|ps| - 1].functionCall
        case Absent => []
        case Null => [Call("None", map[])]
        case Has(fc) => [PartCallOf(fc)];
      PartCallsAsWritten(ps[..|ps| - 1]) + last
  }

  /**
   * The parts path as written also keeps part order and duplicates: the
   * calls of a + b are those of a followed by those of b, the "None" calls
   * of parts whose `function_call` is None included.
   */
  lemma {:induction false} PartCallsAsWrittenAppend(a: seq<Part>, b: seq<Part>)
    ensures PartCallsAsWritten(a + b) == PartCallsAsWritten(a) + PartCallsAsWritten(b)
    decreases |b|
  {
    if b != [] {
      var ab := a + b;
      var front := b[..|b| - 1];
      assert ab[..|ab| - 1] == a + front && ab[|ab| - 1] == b[|b| - 1];
      PartCallsAsWrittenAppend(a, front);
    } else {
      assert a + b == a;
    }
  }

  /** The parts path as evidently intended: only parts that carry a call give one, in order, duplicates kept. */
  function PartCalls(ps: seq<Part>): (cs: seq<Call>)
    ensures |cs| <= |ps|
  {
    if ps == [] then []
    else
      var last := if ps[|ps| - 1].functionCall.Has? then [PartCallOf(ps[|ps| - 1].functionCall.value)] else [];
      PartCalls(ps[..|ps| - 1]) + last
  }

  /** The calls of a concatenation of parts are the calls of each half, in order. */
  lemma {:induction false} PartCallsAppend(a: seq<Part>, b: seq<Part>)
    ensures PartCalls(a + b) == PartCalls(a) + PartCalls(b)
    decreases |b|
  {
    if b == [] {
      assert a + b == a;
    } else {
      var init := b[..|b| - 1];
      assert (a + b)[..|a + b| - 1] == a + init;
      assert (a + b)[|a + b| - 1] == b[|b| - 1];
      PartCallsAppend(a, init);
    }
  }

  /** Parts without a call give no calls at all. */
  lemma {:induction false} NoCallPartsGiveNoCalls(ps: seq<Part>)
    requires forall i | 0 <= i < |ps| :: !ps[i].functionCall.Has?
    ensures PartCalls(ps) == []
  {
    if ps != [] {
      var init := ps[..|ps| - 1];
      assert forall i | 0 <= i < |init| :: init[i] == ps[i];
      NoCallPartsGiveNoCalls(init);
    }
  }

  /** Where the two paths differ: a call without a name attribute is skipped by one and named by `str(fc)` in the other. */
  lemma UnnamedCallOnBothPaths(fc: FunctionCall)
    requires fc.name.Absent?
    ensures ShortcutCallsOf([fc]) == []
    ensures PartCalls([Part(None, None, Has(fc))]) == [Call(fc.repr, NormalizeArgs(fc.args))]
  {
    assert [fc][..0] == [];
    assert [Part(None, None, Has(fc))][..0] == [];
  }

  /** The parts path as written: a call whose name attribute holds None fails the reply model. */
  function PartsPathCallsAsWritten(ps: seq<Part>): Status<seq<Call>> {
    if SomePartNameIsNull(ps) then ServerError(InvalidReplyField) else Ok(PartCallsAsWritten(ps))
  }

  /** The parts path as intended, with the same failure. */
  function PartsPathCalls(ps: seq<Part>): Status<seq<Call>> {
    if SomePartNameIsNull(ps) then ServerError(InvalidReplyField) else Ok(PartCalls(ps))
  }

  /** The two readings agree on every list in which no part's `function_call` holds None. */
  lemma {:induction false} AsWrittenAgreesWithoutNullCalls(ps: seq<Part>)
    requires forall i | 0 <= i < |ps| :: !ps[i].functionCall.Null?
    ensures PartCallsAsWritten(ps) == PartCalls(ps)
  {
    if ps != [] {
      var init := ps[..|ps| - 1];
      assert forall i | 0 <= i < |init| :: init[i] == ps[i];
      AsWrittenAgreesWithoutNullCalls(init);
    }
  }

  /**
   * The loop over `candidates[0].content.parts` as written: every part with a
   * `function_call` attribute gives a call, one holding None giving the call
   * "None" with no arguments.
   */
  method ExtractPartCalls(ps: seq<Part>) returns (res: Status<seq<Call>>)
    ensures res == PartsPathCallsAsWritten(ps)
  {
    var calls: seq<Call> := [];
    for i := 0 to |ps|
      invariant calls == PartCallsAsWritten(ps[..i])
      invariant forall j | 0 <= j < i :: !(ps[j].functionCall.Has? && ps[j].functionCall.value.name.Null?)
    {
      assert ps[..i + 1][..i] == ps[..i];
      var part := ps[i];
      match part.functionCall {
        case Absent =>
        case Null =>
          calls := calls + [Call("None", map[])];
        case Has(fc) =>
          if fc.name.Null? {
            return ServerError(InvalidReplyField);
          }
          var args := ArgsTable(fc.args);
          calls := calls + [Call(if fc.name.Has? then fc.name.value else fc.repr, args)];
      }
    }
    assert ps[..|ps|] == ps;
    res := Ok(calls);
  }

  /** The same loop as evidently intended, skipping parts that carry no call. */
  method ExtractPartCallsIntended(ps: seq<Part>) returns (res: Status<seq<Call>>)
    ensures res == PartsPathCalls(ps)
  {
    var calls: seq<Call> := [];
    for i := 0 to |ps|
      invariant calls == PartCalls(ps[..i])
      invariant forall j | 0 <= j < i :: !(ps[j].functionCall.Has? && ps[j].functionCall.value.name.Null?)
    {
      assert ps[..i + 1][..i] == ps[..i];
      var part := ps[i];
      if part.functionCall.Has? {
        var fc := part.functionCall.value;
        if fc.name.Null? {
          return ServerError(InvalidReplyField);
        }
        var args := ArgsTable(fc.args);
        calls := calls + [PartCallOf(fc).(arguments := args)];
      }
    }
    assert ps[..|ps|] == ps;
    res := Ok(calls);
  }

  // ---------------------------------------------------------------------
  // The endpoint
  // ---------------------------------------------------------------------

  /** The calls of a response as written: `function_calls` when non-empty, else the first candidate's parts when it has content. */
  function ResponseCalls(r: Response): Status<seq<Call>> {
    if r.functionCalls != [] then ShortcutCalls(r.functionCalls)
    else if r.candidates != [] && r.candidates[0].content.Some? then
      match r.candidates[0].content.value.parts
      case None => ServerError(NoneAccess)
      case Some(ps) => PartsPathCallsAsWritten(ps)
    else Ok([])
  }

  /** The same choice over the intended parts path. */
  function ResponseCallsIntended(r: Response): Status<seq<Call>> {
    if r.functionCalls != [] then ShortcutCalls(r.functionCalls)
    else if r.candidates != [] && r.candidates[0].content.Some? then
      match r.candidates[0].content.value.parts
      case None => ServerError(NoneAccess)
      case Some(ps) => PartsPathCalls(ps)
    else Ok([])
  }

  /** `response.text if not function_calls else None`. */
  function ReplyText(calls: seq<Call>, r: Response): (t: Option<string>)
    ensures t.Some? ==> calls == [] && t == r.text
    ensures calls == [] ==> t == r.text
  {
    if calls == [] then r.text else None
  }

  /** The reply once the calls are known: the model must be present. */
  function ReplyFor(req: CallingRequest, r: Response, found: Status<seq<Call>>): Status<CallingReply> {
    match found
    case Ok(calls) =>
      if req.model.None? then ServerError(InvalidReplyField)
      else Ok(CallingReply(calls, ReplyText(calls, r), req.model.value))
    case BadRequest(d) => BadRequest(d)
    case ServerError(c) => ServerError(c)
  }

  /** call_functions once the SDK has replied, as written. */
  function CallOutcome(req: CallingRequest, reply: Reply): Status<CallingReply> {
    match reply
    case Raised(msg) => ServerError(Upstream(msg))
    case Returned(r) => ReplyFor(req, r, ResponseCalls(r))
  }

  /** call_functions once the SDK has replied, with the intended parts path. */
  function CallOutcomeIntended(req: CallingRequest, reply: Reply): (res: Status<CallingReply>)
    ensures reply.Raised? ==> res == ServerError(Upstream(reply.message))
    ensures res.Ok? ==> req.model == Some(res.value.model)
    ensures res.Ok? && res.value.text.Some? ==> res.value.functionCalls == []
  {
    match reply
    case Raised(msg) => ServerError(Upstream(msg))
    case Returned(r) => ReplyFor(req, r, ResponseCallsIntended(r))
  }

  /** While `function_calls` is non-empty the candidates are never read, on either reading. */
  lemma ShortcutPathIgnoresCandidates(r: Response, cs: seq<Candidate>)
    requires r.functionCalls != []
    ensures ResponseCalls(r.(candidates := cs)) == ResponseCalls(r)
    ensures ResponseCallsIntended(r.(candidates := cs)) == ResponseCallsIntended(r)
  {
  }

  /** The intended reply carries the response text exactly when it carries no call. */
  lemma TextOnlyWithoutCalls(req: CallingRequest, r: Response)
    requires CallOutcomeIntended(req, Returned(r)).Ok?
    ensures var out := CallOutcomeIntended(req, Returned(r)).value;
      (out.functionCalls == [] ==> out.text == r.text) && (out.functionCalls != [] ==> out.text == None)
  {
  }

  /**
   * On the intended path a response without `function_calls` whose first
   * candidate's parts carry no call returns no calls and the response text.
   */
  lemma {:induction false} NoCallsKeepText(req: CallingRequest, r: Response, ps: seq<Part>)
    requires req.model.Some? && r.functionCalls == []
    requires r.candidates != [] && r.candidates[0].content == Some(Content(Some(ps)))
    requires forall i | 0 <= i < |ps| :: !ps[i].functionCall.Has?
    ensures CallOutcomeIntended(req, Returned(r)) == Ok(CallingReply([], r.text, req.model.value))
  {
    assert !SomePartNameIsNull(ps);
    NoCallPartsGiveNoCalls(ps);
  }

  /** The two readings differ only on the parts path, and only through parts whose `function_call` holds None. */
  lemma AsWrittenAgreesWithIntended(req: CallingRequest, r: Response)
    requires r.functionCalls != [] || r.candidates == [] || r.candidates[0].content.None?
      || r.candidates[0].content.value.parts.None?
      || forall i | 0 <= i < |r.candidates[0].content.value.parts.value| ::
           !r.candidates[0].content.value.parts.value[i].functionCall.Null?
    ensures CallOutcome(req, Returned(r)) == CallOutcomeIntended(req, Returned(r))
  {
    if r.functionCalls == [] && r.candidates != [] && r.candidates[0].content.Some? && r.candidates[0].content.value.parts.Some? {
      AsWrittenAgreesWithoutNullCalls(r.candidates[0].content.value.parts.value);
    }
  }

  /** A text-only reply: its one part's `function_call` holds None and `function_calls` is empty. */
  function TextOnlyResponse(text: string): Response {
    Response([Candidate(Some(Content(Some([Part(Some(text), None, Null)]))))], Has([Part(Some(text), None, Null)]), [], Some(text))
  }

  /**
   * As written, the endpoint turns the text part of a text-only reply into a
   * call named "None" and drops the text; the intended endpoint returns no
   * call and the text.
   */
  lemma {:induction false} TextReplyAsWritten(req: CallingRequest, text: string)
    requires req.model.Some?
    ensures CallOutcome(req, Returned(TextOnlyResponse(text)))
      == Ok(CallingReply([Call("None", map[])], None, req.model.value))
    ensures CallOutcomeIntended(req, Returned(TextOnlyResponse(text)))
      == Ok(CallingReply([], Some(text), req.model.value))
  {
    var ps := [Part(Some(text), None, Null)];
    assert ps[..0] == [];
    assert !SomePartNameIsNull(ps);
    assert PartCallsAsWritten(ps) == [Call("None", map[])];
    assert PartCalls(ps) == [];
  }

  /** call_functions, once the SDK has replied: the program as written. */
  method CallFunctions(req: CallingRequest, reply: Reply) returns (res: Status<CallingReply>)
    ensures res == CallOutcome(req, reply)
    ensures res.Ok? ==> (res.value.text.Some? ==> res.value.functionCalls == [])
  {
    if reply.Raised? {
      return ServerError(Upstream(reply.message));
    }
    var r := reply.response;
    var found: Status<seq<Call>> := Ok([]);
    if r.functionCalls != [] {
      found := ExtractShortcutCalls(r.functionCalls);
    } else if r.candidates != [] && r.candidates[0].content.Some? {
      var content := r.candidates[0].content.value;
      if content.parts.None? {
        return ServerError(NoneAccess);
      }
      found := ExtractPartCalls(content.parts.value);
    }
    var calls: seq<Call>;
    match found {
      case Ok(cs) => calls := cs;
      case BadRequest(d) => return BadRequest(d);
      case ServerError(c) => return ServerError(c);
    }
    if req.model.None? {
      return ServerError(InvalidReplyField);
    }
    res := Ok(CallingReply(calls, if calls == [] then r.text else None, req.model.value));
  }
}

=== FILE: genai.dfy ===
/**
 * A closed stand-in for the objects the generative-AI SDK hands to the
 * routers, and for the request parts the routers hand back to it.
 *
 * The SDK's response types declare every field, so a field the routers only
 * test for truthiness is an `Option` (or a `seq`, with None folded into the
 * empty list); a field the routers probe with `hasattr` separately from its
 * value is an `Attr`.
 */
module Genai {
  import opened Wrappers

  newtype byte = b: int | 0 <= b < 256

  /**
   * The library's base64 encoder (section 4 of RFC 4648). The routers only
   * call it, so every operation that encodes takes it as a parameter.
   */
  type Encoder = seq<byte> -> string

  /** A JSON value, as found in function-call arguments and parameter schemas. */
  datatype Json =
    | JNull
    | JBool(b: bool)
    | JInt(i: int)
    | JStr(s: string)
    | JList(items: seq<Json>)
    | JObject(fields: map<string, Json>)

  type JsonMap = map<string, Json>

  /** What `inline_data.data` holds: raw bytes, a str (already base64), or a value of another type. */
  datatype Data = Bytes(bytes: seq<byte>) | Str(text: string) | OtherData

  /** `part.inline_data`: a declared MIME type and a payload, either possibly None. */
  datatype Blob = Blob(mimeType: Option<string>, data: Option<Data>)

  /**
   * The value of a function call's `args`: a plain dict, or some other object
   * that may offer `model_dump()` and may have a `__dict__` field table.
   * None is an ArgsObject with neither.
   */
  datatype ArgsValue =
    | ArgsDict(entries: JsonMap)
    | ArgsObject(dump: Option<JsonMap>, fields: Option<JsonMap>)

  /** A function call object; `repr` is what `str(fc)` gives for it. */
  datatype FunctionCall = FunctionCall(name: Attr<string>, args: Attr<ArgsValue>, repr: string)

  datatype Part = Part(text: Option<string>, inlineData: Option<Blob>, functionCall: Attr<FunctionCall>)

  datatype Content = Content(parts: Option<seq<Part>>)

  datatype Candidate = Candidate(content: Option<Content>)

  datatype Response = Response(
    candidates: seq<Candidate>,
    parts: Attr<seq<Part>>,
    functionCalls: seq<FunctionCall>,
    text: Option<string>)

  /** The SDK call either returned a response or raised an exception with a message. */
  datatype Reply = Returned(response: Response) | Raised(message: string)

  /** Python truthiness of an inline-data payload: None, b"" and "" are false. */
  predicate IsTruthy(d: Option<Data>) {
    match d
    case None => false
    case Some(Bytes(bs)) => bs != []
    case Some(Str(s)) => s != ""
    case Some(OtherData) => true
  }

  // ---------------------------------------------------------------------
  // Where a router finds the parts it scans
  // ---------------------------------------------------------------------

  /** The parts list a router scans: found, nothing to scan, or None where a list was iterated (TypeError). */
  datatype Located = Scan(parts: seq<Part>) | NotFound | NotIterable

  /**
   * `candidates[0].content.parts` behind the guard
   * `response.candidates` and `candidates[0]` having a content.
   */
  function FirstCandidateParts(r: Response): (l: Located)
    ensures l.NotFound? <==> r.candidates == [] || r.candidates[0].content.None?
    ensures l.NotIterable? <==> r.candidates != [] && r.candidates[0].content == Some(Content(None))
    ensures l.Scan? ==> r.candidates != [] && r.candidates[0].content == Some(Content(Some(l.parts)))
  {
    if r.candidates == [] then NotFound
    else match r.candidates[0].content
      case None => NotFound
      case Some(Content(None)) => NotIterable
      case Some(Content(Some(ps))) => Scan(ps)
  }

  /** The top-level `response.parts`, after `hasattr(response, "parts")`. */
  function FlatParts(r: Response): (l: Located)
    ensures l.NotFound? <==> r.parts.Absent?
    ensures l.NotIterable? <==> r.parts.Null?
    ensures l.Scan? ==> r.parts == Has(l.parts)
  {
    match r.parts
    case Absent => NotFound
    case Null => NotIterable
    case Has(ps) => Scan(ps)
  }

  /**
   * The image and audio routers' choice: the first candidate's parts when
   * `candidates` is non-empty, and the flat `parts` only otherwise.
   */
  function PartsWithFallback(r: Response): (l: Located)
    ensures r.candidates != [] ==> l == FirstCandidateParts(r)
    ensures r.candidates == [] ==> l == FlatParts(r)
  {
    if r.candidates != [] then FirstCandidateParts(r) else FlatParts(r)
  }

  // ---------------------------------------------------------------------
  // Request side
  // ---------------------------------------------------------------------

  /** One element of a request's `parts`: `{"text": ...}` or `{"inline_data": {...}}`. */
  datatype RequestPart = TextPart(text: string) | InlinePart(mimeType: string, data: string)

  /** An uploaded file: its declared content type, its file name and its bytes. */
  datatype Upload = Upload(contentType: Option<string>, filename: Option<string>, bytes: seq<byte>)

  /** `file.content_type or fallback`. */
  function UploadMime(f: Upload, fallback: string): (m: string)
    ensures f.contentType.Some? && f.contentType.value != "" ==> m == f.contentType.value
    ensures f.contentType.None? || f.contentType.value == "" ==> m == fallback
  {
    if f.contentType.Some? && f.contentType.value != "" then f.contentType.value else fallback
  }

  /** `{"inline_data": {"mime_type": file.content_type or fallback, "data": b64(file)}}`. */
  function UploadPart(f: Upload, fallback: string, b64: Encoder): RequestPart {
    InlinePart(UploadMime(f, fallback), b64(f.bytes))
  }
}

=== FILE: http.dfy ===
/** The outcome an endpoint hands back to FastAPI: a reply body or an HTTP error. */
module Http {

  /** Why an endpoint answered 500. */
  datatype Cause =
    | Upstream(message: string)  // the SDK call itself raised; `str(e)` is the detail
    | NoneAccess                 // iteration, `len()` or attribute access on None or on a missing attribute (TypeError / AttributeError)
    | UnexpectedDataType         // ValueError: inline data that is neither bytes nor str
    | NotBytes                   // TypeError: base64-encoding a payload that is not bytes
    | NoImageData                // HTTPException(500, "画像データが取得できませんでした")
    | EmbeddingNotFound          // ValueError("Embedding values not found in response")
    | InvalidReplyField          // pydantic refused a value the router put into its reply model

  datatype Status<+T> =
    | Ok(value: T)
    | BadRequest(detail: string)  // HTTPException(status_code=400, detail=...)
    | ServerError(cause: Cause)   // HTTPException(status_code=500, ...)
}

=== FILE: image.dfy ===
/**
 * The image router: model selection for generation, editing and
 * composition, the inline-data scans that pull an image out of a response,
 * the data URL returned to the caller, and the multi-turn chat with its
 * in-memory session table.
 */
module ImageRouter {
  import opened Wrappers
  import opened Strings
  import opened Genai
  import opened Http
  import opened DataUrls

  const DefaultImageModel := "gemini-2.5-flash-image"
  const ProImageModel := "gemini-3-pro-image-preview"
  const ValidImageModels: seq<string> := [DefaultImageModel, ProImageModel]
  const DefaultImageMime := "image/png"
  const UploadFallbackMime := "image/jpeg"
  const PlaceholderImageUrl := "https://example.com/generated-image.png"

  function UnsupportedModelDetail(model: string): string {
    "画像生成モデル '" + model + "' は現在サポートされていません。Nano Bananaモデル（gemini-2.5-flash-image または gemini-3-pro-image-preview）を使用してください。"
  }

  function InvalidModelDetail(model: string): string {
    "無効なモデル '" + model + "' が指定されました。有効なモデル: " + Join(ValidImageModels, ", ")
  }

  // ---------------------------------------------------------------------
  // Model selection
  // ---------------------------------------------------------------------

  /** A "gemini" model name is neither an "imagen" name nor "imagen-4.0". */
  lemma GeminiIsNotImagen(m: string)
    ensures StartsWith(m, "gemini") ==> !StartsWith(m, "imagen") && m != "imagen-4.0"
    ensures m == "imagen-4.0" ==> StartsWith(m, "imagen") && !StartsWith(m, "gemini")
    ensures StartsWith(DefaultImageModel, "gemini") && StartsWith(ProImageModel, "gemini")
  {
    assert "imagen-4.0"[..6] == "imagen";
    if StartsWith(m, "gemini") {
      assert m[0] == m[..6][0] == 'g';
    }
  }

  /**
   * generate_image's model check: an "imagen" model is refused outright,
   * anything else not prefixed "gemini" falls back to the default, and the
   * outcome must be on the allow-list. A JSON null model fails on `startswith`.
   */
  function SelectGenerateModel(model: Option<string>): (r: Status<string>)
    ensures model.None? ==> r == ServerError(NoneAccess)
    ensures model.Some? && StartsWith(model.value, "imagen") ==> r == BadRequest(UnsupportedModelDetail(model.value))
    ensures model.Some? && !StartsWith(model.value, "imagen") && !StartsWith(model.value, "gemini") ==> r == Ok(DefaultImageModel)
    ensures model.Some? && StartsWith(model.value, "gemini") ==>
      r == if model.value in ValidImageModels then Ok(model.value) else BadRequest(InvalidModelDetail(model.value))
    ensures r.Ok? ==> r.value in ValidImageModels
  {
    match model
    case None => ServerError(NoneAccess)
    case Some(m) =>
      GeminiIsNotImagen(m);
      if StartsWith(m, "imagen") || m == "imagen-4.0" then BadRequest(UnsupportedModelDetail(m))
      else
        var chosen := if m == "" || !StartsWith(m, "gemini") then DefaultImageModel else m;
        if chosen !in ValidImageModels then BadRequest(InvalidModelDetail(chosen)) else Ok(chosen)
  }

  /**
   * edit_image / compose_images: "imagen-4.0" and every model not prefixed
   * "gemini" become the Pro image model; there is no allow-list.
   */
  function SelectEditModel(model: string): (r: string)
    ensures StartsWith(r, "gemini")
    ensures StartsWith(model, "gemini") ==> r == model
    ensures !StartsWith(model, "gemini") ==> r == ProImageModel
  {
    GeminiIsNotImagen(model);
    if model == "imagen-4.0" || !StartsWith(model, "gemini") then ProImageModel else model
  }

  /** The imagen check is what stops an imagen model from being quietly defaulted. */
  lemma ImagenIsNeverDefaulted(m: string)
    requires StartsWith(m, "imagen")
    ensures !StartsWith(m, "gemini")
    ensures !SelectGenerateModel(Some(m)).Ok?
  {
    assert m[..1] == "i";
  }

  /** A "gemini" model off the allow-list is refused by generation and used as given by editing. */
  lemma EditHasNoAllowList()
    ensures SelectGenerateModel(Some("gemini-2.5-flash")).BadRequest?
    ensures SelectEditModel("gemini-2.5-flash") == "gemini-2.5-flash"
  {
  }

  // ---------------------------------------------------------------------
  // Generation config
  // ---------------------------------------------------------------------

  datatype ImageConfig = ImageConfig(aspectRatio: Option<string>, imageSize: Option<string>)

  /**
   * The `image_config` of a request (sent with response modalities TEXT and
   * IMAGE): present only when an aspect ratio or a resolution is given, and
   * carrying just the settings that were given.
   */
  function ImageConfigFor(aspectRatio: Option<string>, resolution: Option<string>): (c: Option<ImageConfig>)
    ensures c.None? <==> !Truthy(aspectRatio) && !Truthy(resolution)
    ensures c.Some? ==> (c.value.aspectRatio.Some? <==> Truthy(aspectRatio))
    ensures c.Some? ==> (c.value.imageSize.Some? <==> Truthy(resolution))
    ensures c.Some? && c.value.aspectRatio.Some? ==> c.value.aspectRatio == aspectRatio
    ensures c.Some? && c.value.imageSize.Some? ==> c.value.imageSize == resolution
  {
    if Truthy(aspectRatio) || Truthy(resolution) then
      Some(ImageConfig(if Truthy(aspectRatio) then aspectRatio else None,
                       if Truthy(resolution) then resolution else None))
    else None
  }

  // ---------------------------------------------------------------------
  // Scanning a response for an image (last write wins)
  // ---------------------------------------------------------------------

  /** The non-empty MIME type a part declares for its inline data, if any. */
  function DeclaredMime(p: Part): Option<string> {
    if p.inlineData.Some? && Truthy(p.inlineData.value.mimeType) then p.inlineData.value.mimeType else None
  }

  /** The payload of the last part that carries inline data; None when no part does. */
  function LastBlobData(ps: seq<Part>): Option<Data> {
    if ps == [] then None
    else match ps[|ps| - 1].inlineData
      case Some(b) => b.data
      case None => LastBlobData(ps[..|ps| - 1])
  }

  /** The last non-empty MIME type declared by any inline part, or `dflt` when none is. */
  function LastMime(ps: seq<Part>, dflt: string): string {
    if ps == [] then dflt
    else match DeclaredMime(ps[|ps| - 1])
      case Some(m) => m
      case None => LastMime(ps[..|ps| - 1], dflt)
  }

  /** The payload kept is that of the last inline part, whatever came before it. */
  lemma {:induction false} LastBlobWins(ps: seq<Part>, k: nat)
    requires k < |ps| && ps[k].inlineData.Some?
    requires forall j | k < j < |ps| :: ps[j].inlineData.None?
    ensures LastBlobData(ps) == ps[k].inlineData.value.data
  {
    if k < |ps| - 1 {
      var init := ps[..|ps| - 1];
      assert init[k] == ps[k];
      assert forall j | k < j < |init| :: init[j] == ps[j];
      LastBlobWins(init, k);
    }
  }

  /** With no inline part there is no payload. */
  lemma {:induction false} NoBlobNoData(ps: seq<Part>)
    requires forall j | 0 <= j < |ps| :: ps[j].inlineData.None?
    ensures LastBlobData(ps) == None
  {
    if ps != [] {
      var init := ps[..|ps| - 1];
      assert forall j | 0 <= j < |init| :: init[j] == ps[j];
      NoBlobNoData(init);
    }
  }

  /** The reported MIME type is the default or one that some part declared. */
  lemma {:induction false} LastMimeIsDeclared(ps: seq<Part>, dflt: string)
    ensures LastMime(ps, dflt) == dflt || exists k | 0 <= k < |ps| :: DeclaredMime(ps[k]) == Some(LastMime(ps, dflt))
  {
    if ps != [] && DeclaredMime(ps[|ps| - 1]).None? {
      var init := ps[..|ps| - 1];
      LastMimeIsDeclared(init, dflt);
      if LastMime(init, dflt) != dflt {
        var k :| 0 <= k < |init| && DeclaredMime(init[k]) == Some(LastMime(init, dflt));
        assert ps[k] == init[k];
      }
    }
  }

  /** The MIME type and the payload may come from different parts. */
  lemma MimeMayComeFromEarlierPart()
    ensures var ps := [Part(None, Some(Blob(Some("image/jpeg"), Some(Bytes([1])))), Absent),
                       Part(None, Some(Blob(None, Some(Bytes([2])))), Absent)];
      LastBlobData(ps) == Some(Bytes([2])) && LastMime(ps, DefaultImageMime) == "image/jpeg"
  {
  }

  /** The loop of generate_image, edit_image and compose_images over the located parts. */
  method ScanImageParts(ps: seq<Part>) returns (data: Option<Data>, mime: string)
    ensures data == LastBlobData(ps)
    ensures mime == LastMime(ps, DefaultImageMime)
  {
    data, mime := None, DefaultImageMime;
    for i := 0 to |ps|
      invariant data == LastBlobData(ps[..i])
      invariant mime == LastMime(ps[..i], DefaultImageMime)
    {
      assert ps[..i + 1][..i] == ps[..i];
      var part := ps[i];
      if part.inlineData.Some? {
        data := part.inlineData.value.data;
        var declared := part.inlineData.value.mimeType;
        if declared.Some? && declared.value != "" {
          mime := declared.value;
        }
      }
    }
    assert ps[..|ps|] == ps;
  }

  // ---------------------------------------------------------------------
  // The image URL
  // ---------------------------------------------------------------------

  /** What the image search of one response comes to. */
  datatype ImageSearch = UrlFound(url: string) | NoImage | ScanFailed(cause: Cause)

  /**
   * The URL for a scanned payload: nothing for a falsy payload; bytes are
   * base64-encoded, a str is taken as already encoded, any other type is a
   * ValueError.
   */
  function ImageUrlFor(mime: string, data: Option<Data>, b64: Encoder): (s: ImageSearch)
    ensures !IsTruthy(data) <==> s.NoImage?
    ensures data == Some(OtherData) <==> s.ScanFailed?
    ensures s.ScanFailed? ==> s.cause == UnexpectedDataType
    ensures s.UrlFound? && data.value.Bytes? ==> s.url == DataUrl(mime, b64(data.value.bytes))
    ensures s.UrlFound? && data.value.Str? ==> s.url == DataUrl(mime, data.value.text)
    ensures s.UrlFound? ==> StartsWith(s.url, Scheme)
  {
    if !IsTruthy(data) then NoImage
    else match data.value
      case Bytes(bs) => UrlFound(DataUrl(mime, b64(bs)))
      case Str(s) => UrlFound(DataUrl(mime, s))
      case OtherData => ScanFailed(UnexpectedDataType)
  }

  /** The image search of a response, as the three image endpoints perform it. */
  function ImageSearchOf(r: Response, b64: Encoder): (s: ImageSearch)
    ensures s.UrlFound? ==> StartsWith(s.url, Scheme)
  {
    match PartsWithFallback(r)
    case NotIterable => ScanFailed(NoneAccess)
    case NotFound => NoImage
    case Scan(ps) => ImageUrlFor(LastMime(ps, DefaultImageMime), LastBlobData(ps), b64)
  }

  /** Raw bytes and the same bytes already base64-encoded give the same URL. */
  lemma EncodedStrMatchesBytes(mime: string, bs: seq<byte>, b64: Encoder)
    requires bs != [] && b64(bs) != ""
    ensures ImageUrlFor(mime, Some(Bytes(bs)), b64) == ImageUrlFor(mime, Some(Str(b64(bs))), b64)
  {
  }

  /** A found image URL reads back as the reported MIME type and the payload of the last inline part. */
  lemma {:induction false} FoundUrlReadsBack(r: Response, b64: Encoder, ps: seq<Part>)
    requires PartsWithFallback(r) == Scan(ps)
    requires ImageSearchOf(r, b64).UrlFound?
    requires ';' !in LastMime(ps, DefaultImageMime)
    ensures var d := LastBlobData(ps).value;
      ParseDataUrl(ImageSearchOf(r, b64).url)
        == Some((LastMime(ps, DefaultImageMime), if d.Bytes? then b64(d.bytes) else d.text))
  {
    var d := LastBlobData(ps).value;
    ParseBuiltDataUrl(LastMime(ps, DefaultImageMime), if d.Bytes? then b64(d.bytes) else d.text);
  }

  /** The flat `parts` list is never looked at while `candidates` is non-empty. */
  lemma FlatPartsIgnoredWithCandidates(r: Response, flat: Attr<seq<Part>>, b64: Encoder)
    requires r.candidates != []
    ensures ImageSearchOf(r.(parts := flat), b64) == ImageSearchOf(r, b64)
  {
  }

  method SearchImage(r: Response, b64: Encoder) returns (s: ImageSearch)
    ensures s == ImageSearchOf(r, b64)
  {
    var located := PartsWithFallback(r);
    match located {
      case NotIterable => s := ScanFailed(NoneAccess);
      case NotFound => s := NoImage;
      case Scan(ps) =>
        var data, mime := ScanImageParts(ps);
        s := ImageUrlFor(mime, data, b64);
    }
  }

  // ---------------------------------------------------------------------
  // Endpoints
  // ---------------------------------------------------------------------

  datatype GenerateRequest = GenerateRequest(prompt: string, model: Option<string>, aspectRatio: Option<string>, resolution: Option<string>)

  datatype EditRequest = EditRequest(file: Upload, prompt: string, model: string, aspectRatio: Option<string>, resolution: Option<string>)

  datatype ComposeRequest = ComposeRequest(files: seq<Upload>, prompt: string, model: string, aspectRatio: Option<string>, resolution: Option<string>)

  datatype ImageReply = ImageReply(imageUrl: string, model: string, aspectRatio: Option<string>, resolution: Option<string>)

  /** What generate_image answers once the SDK has replied (or without calling it, for a refused model). */
  function GenerateOutcome(req: GenerateRequest, reply: Reply, b64: Encoder): (res: Status<ImageReply>)
    ensures !SelectGenerateModel(req.model).Ok? ==> !res.Ok?
    ensures res.Ok? ==> res.value.model in ValidImageModels
    ensures res.Ok? && res.value.imageUrl == PlaceholderImageUrl ==> res.value.aspectRatio.None? && res.value.resolution.None?
  {
    match SelectGenerateModel(req.model)
    case BadRequest(d) => BadRequest(d)
    case ServerError(c) => ServerError(c)
    case Ok(model) =>
      match reply
      case Raised(msg) => ServerError(Upstream(msg))
      case Returned(r) =>
        match ImageSearchOf(r, b64)
        case UrlFound(u) =>
          // a found image is a data URL, which the placeholder is not
          assert PlaceholderImageUrl[0] != Scheme[0];
          Ok(ImageReply(u, model, req.aspectRatio, req.resolution))
        case NoImage => Ok(ImageReply(PlaceholderImageUrl, model, None, None))
        case ScanFailed(c) => ServerError(c)
  }

  /**
   * generate_image: a refused model is answered before anything is sent;
   * otherwise the prompt goes to the selected model with the image config,
   * a found image becomes a data URL, and no image gives the placeholder URL
   * (without the aspect ratio and resolution).
   */
  method GenerateImage(req: GenerateRequest, reply: Reply, b64: Encoder) returns (sent: Option<ImageCall>, res: Status<ImageReply>)
    ensures sent.Some? <==> SelectGenerateModel(req.model).Ok?
    ensures sent.Some? ==> sent.value.model == SelectGenerateModel(req.model).value && sent.value.model in ValidImageModels
    ensures sent.Some? ==> sent.value.contents == [TextPart(req.prompt)]
    ensures sent.Some? ==> sent.value.config == ImageConfigFor(req.aspectRatio, req.resolution)
    ensures res == GenerateOutcome(req, reply, b64)
    ensures SelectGenerateModel(req.model).BadRequest? ==> res == BadRequest(SelectGenerateModel(req.model).detail)
    ensures SelectGenerateModel(req.model).ServerError? ==> res == ServerError(SelectGenerateModel(req.model).cause)
    ensures SelectGenerateModel(req.model).Ok? && reply.Raised? ==> res == ServerError(Upstream(reply.message))
    ensures res.Ok? ==> res.value.model in ValidImageModels
  {
    var selected := SelectGenerateModel(req.model);
    match selected {
      case BadRequest(d) => return None, BadRequest(d);
      case ServerError(c) => return None, ServerError(c);
      case Ok(model) =>
        sent := Some(ImageCall(model, [TextPart(req.prompt)], ImageConfigFor(req.aspectRatio, req.resolution)));
        match reply {
          case Raised(msg) => return sent, ServerError(Upstream(msg));
          case Returned(r) =>
            var found := SearchImage(r, b64);
            match found {
              case UrlFound(u) => res := Ok(ImageReply(u, model, req.aspectRatio, req.resolution));
              case NoImage => res := Ok(ImageReply(PlaceholderImageUrl, model, None, None));
              case ScanFailed(c) => res := ServerError(c);
            }
        }
    }
  }

  /** The edit request's parts: the prompt first, then the uploaded image. */
  function EditContents(prompt: string, file: Upload, b64: Encoder): (parts: seq<RequestPart>)
    ensures |parts| == 2
    ensures parts[0] == TextPart(prompt)
    ensures parts[1] == InlinePart(UploadMime(file, UploadFallbackMime), b64(file.bytes))
  {
    [TextPart(prompt), UploadPart(file, UploadFallbackMime, b64)]
  }

  /** compose_images' request parts: the prompt first, then one inline part per file, in order. */
  method ComposeContents(prompt: string, files: seq<Upload>, b64: Encoder) returns (parts: seq<RequestPart>)
    ensures |parts| == |files| + 1
    ensures parts[0] == TextPart(prompt)
    ensures forall i | 0 <= i < |files| :: parts[i + 1] == InlinePart(UploadMime(files[i], UploadFallbackMime), b64(files[i].bytes))
  {
    parts := [TextPart(prompt)];
    for i := 0 to |files|
      invariant |parts| == i + 1
      invariant parts[0] == TextPart(prompt)
      invariant forall j | 0 <= j < i :: parts[j + 1] == UploadPart(files[j], UploadFallbackMime, b64)
    {
      parts := parts + [UploadPart(files[i], UploadFallbackMime, b64)];
    }
  }

  /** What edit_image and compose_images answer once the SDK has replied: no image is a 500. */
  function EditOutcome(model: string, aspectRatio: Option<string>, resolution: Option<string>, reply: Reply, b64: Encoder): Status<ImageReply> {
    match reply
    case Raised(msg) => ServerError(Upstream(msg))
    case Returned(r) =>
      match ImageSearchOf(r, b64)
      case UrlFound(u) => Ok(ImageReply(u, SelectEditModel(model), aspectRatio, resolution))
      case NoImage => ServerError(NoImageData)
      case ScanFailed(c) => ServerError(c)
  }

  /** On the same response without an image, generation answers the placeholder and editing fails with 500. */
  lemma {:induction false} NoImagePlaceholderVersusError(req: GenerateRequest, model: string, r: Response, b64: Encoder)
    requires SelectGenerateModel(req.model).Ok?
    requires ImageSearchOf(r, b64).NoImage?
    ensures GenerateOutcome(req, Returned(r), b64)
      == Ok(ImageReply(PlaceholderImageUrl, SelectGenerateModel(req.model).value, None, None))
    ensures EditOutcome(model, req.aspectRatio, req.resolution, Returned(r), b64) == ServerError(NoImageData)
  {
  }

  method FinishEdit(model: string, aspectRatio: Option<string>, resolution: Option<string>, reply: Reply, b64: Encoder)
    returns (res: Status<ImageReply>)
    ensures res == EditOutcome(model, aspectRatio, resolution, reply, b64)
    ensures res.Ok? ==> StartsWith(res.value.model, "gemini")
  {
    match reply {
      case Raised(msg) => res := ServerError(Upstream(msg));
      case Returned(r) =>
        var found := SearchImage(r, b64);
        match found {
          case UrlFound(u) => res := Ok(ImageReply(u, SelectEditModel(model), aspectRatio, resolution));
          case NoImage => res := ServerError(NoImageData);
          case ScanFailed(c) => res := ServerError(c);
        }
    }
  }

  /** What an endpoint hands to `generate_content`: the model, the request parts and the image config. */
  datatype ImageCall = ImageCall(model: string, contents: seq<RequestPart>, config: Option<ImageConfig>)

  /** edit_image: the call it makes, and its answer once the SDK has replied. */
  method EditImage(req: EditRequest, reply: Reply, b64: Encoder) returns (sent: ImageCall, res: Status<ImageReply>)
    ensures StartsWith(sent.model, "gemini") && sent.model == SelectEditModel(req.model)
    ensures sent.contents == EditContents(req.prompt, req.file, b64)
    ensures sent.config == ImageConfigFor(req.aspectRatio, req.resolution)
    ensures res == EditOutcome(req.model, req.aspectRatio, req.resolution, reply, b64)
    ensures res.Ok? ==> res.value.model == sent.model
  {
    sent := ImageCall(SelectEditModel(req.model), EditContents(req.prompt, req.file, b64), ImageConfigFor(req.aspectRatio, req.resolution));
    res := FinishEdit(req.model, req.aspectRatio, req.resolution, reply, b64);
  }

  /** compose_images: the call it makes, one inline part per file, and its answer once the SDK has replied. */
  method ComposeImages(req: ComposeRequest, reply: Reply, b64: Encoder) returns (sent: ImageCall, res: Status<ImageReply>)
    ensures StartsWith(sent.model, "gemini") && sent.model == SelectEditModel(req.model)
    ensures |sent.contents| == |req.files| + 1 && sent.contents[0] == TextPart(req.prompt)
    ensures forall i | 0 <= i < |req.files| ::
      sent.contents[i + 1] == InlinePart(UploadMime(req.files[i], UploadFallbackMime), b64(req.files[i].bytes))
    ensures sent.config == ImageConfigFor(req.aspectRatio, req.resolution)
    ensures res == EditOutcome(req.model, req.aspectRatio, req.resolution, reply, b64)
    ensures res.Ok? ==> res.value.model == sent.model
  {
    var contents := ComposeContents(req.prompt, req.files, b64);
    sent := ImageCall(SelectEditModel(req.model), contents, ImageConfigFor(req.aspectRatio, req.resolution));
    res := FinishEdit(req.model, req.aspectRatio, req.resolution, reply, b64);
  }

  // ---------------------------------------------------------------------
  // Multi-turn chat
  // ---------------------------------------------------------------------

  datatype ChatRequest = ChatRequest(message: string, model: Option<string>, aspectRatio: Option<string>, resolution: Option<string>, sessionId: Option<string>)

  /** What `client.chats.create` received (its response modalities are always TEXT and IMAGE). */
  datatype ChatSession = ChatSession(model: string, imageConfig: Option<ImageConfig>)

  /** What `chat.send_message` receives: the message, and a config holding only the image config when there is one. */
  datatype ChatMessage = ChatMessage(text: string, imageConfig: Option<ImageConfig>)

  datatype ChatReply = ChatReply(text: Option<string>, imageUrl: Option<string>, model: string, sessionId: string)

  /** `request.model or "gemini-3-pro-image-preview"`. */
  function ChatModel(model: Option<string>): (m: string)
    ensures m != ""
    ensures Truthy(model) ==> m == model.value
    ensures !Truthy(model) ==> m == ProImageModel
  {
    if Truthy(model) then model.value else ProImageModel
  }

  /** `request.session_id or str(uuid.uuid4())`, the fresh id being supplied by the caller. */
  function SessionIdFor(given: Option<string>, freshId: string): (id: string)
    ensures Truthy(given) ==> id == given.value
    ensures !Truthy(given) ==> id == freshId
  {
    if Truthy(given) then given.value else freshId
  }

  function NewSession(req: ChatRequest): ChatSession {
    ChatSession(ChatModel(req.model), ImageConfigFor(req.aspectRatio, req.resolution))
  }

  /** The chat loop's variables: the text, the image URL and the MIME type carried between parts. */
  datatype ChatScan = ChatScan(text: Option<string>, imageUrl: Option<string>, mime: string)

  /**
   * One part of the chat loop: a non-empty text replaces the text; otherwise
   * inline data updates the carried MIME type and, when its payload is bytes
   * or a str (even an empty one), replaces the image URL.
   */
  function ChatStep(st: ChatScan, p: Part, b64: Encoder): ChatScan {
    if Truthy(p.text) then st.(text := p.text)
    else match p.inlineData
      case None => st
      case Some(b) =>
        var mime := if Truthy(b.mimeType) then b.mimeType.value else st.mime;
        match b.data
        case Some(Bytes(bs)) => ChatScan(st.text, Some(DataUrl(mime, b64(bs))), mime)
        case Some(Str(s)) => ChatScan(st.text, Some(DataUrl(mime, s)), mime)
        case _ => st.(mime := mime)
  }

  /** The chat loop's variables after the parts `ps`, starting from no text, no URL and "image/png". */
  function ChatFold(ps: seq<Part>, b64: Encoder): ChatScan {
    if ps == [] then ChatScan(None, None, DefaultImageMime)
    else ChatStep(ChatFold(ps[..|ps| - 1], b64), ps[|ps| - 1], b64)
  }

  /** The last non-empty text among the parts. */
  function LastText(ps: seq<Part>): Option<string> {
    if ps == [] then None
    else if Truthy(ps[|ps| - 1].text) then ps[|ps| - 1].text
    else LastText(ps[..|ps| - 1])
  }

  /** A part whose payload the chat loop turns into a URL. */
  predicate Encodable(p: Part) {
    !Truthy(p.text) && p.inlineData.Some? && p.inlineData.value.data.Some?
    && (p.inlineData.value.data.value.Bytes? || p.inlineData.value.data.value.Str?)
  }

  /** The chat reply's text is the last non-empty text part. */
  lemma {:induction false} ChatTextIsLastText(ps: seq<Part>, b64: Encoder)
    ensures ChatFold(ps, b64).text == LastText(ps)
  {
    if ps != [] {
      ChatTextIsLastText(ps[..|ps| - 1], b64);
    }
  }

  /** The chat reply has an image URL exactly when some part's payload is bytes or a str. */
  lemma {:induction false} ChatUrlIffEncodable(ps: seq<Part>, b64: Encoder)
    ensures ChatFold(ps, b64).imageUrl.Some? <==> exists k | 0 <= k < |ps| :: Encodable(ps[k])
  {
    if ps != [] {
      var init := ps[..|ps| - 1];
      ChatUrlIffEncodable(init, b64);
      assert forall k | 0 <= k < |init| :: init[k] == ps[k];
      if exists k | 0 <= k < |ps| :: Encodable(ps[k]) {
        var k :| 0 <= k < |ps| && Encodable(ps[k]);
        if k < |init| { assert Encodable(init[k]); }
      }
    }
  }

  /** Unlike the other image endpoints, the chat turns an empty payload into a URL too. */
  lemma ChatKeepsEmptyPayload(b64: Encoder)
    requires b64([]) == ""
    ensures var ps := [Part(None, Some(Blob(None, Some(Bytes([])))), Absent)];
      ChatFold(ps, b64).imageUrl == Some("data:image/png;base64,")
      && LastBlobData(ps) == Some(Bytes([])) && !IsTruthy(LastBlobData(ps))
  {
    var ps := [Part(None, Some(Blob(None, Some(Bytes([])))), Absent)];
    assert ps[..0] == [];
    assert DataUrl(DefaultImageMime, "") == "data:image/png;base64,";
  }

  /** The loop of multi_turn_image_chat over `response.parts`. */
  method ScanChatParts(ps: seq<Part>, b64: Encoder) returns (text: Option<string>, imageUrl: Option<string>)
    ensures text == ChatFold(ps, b64).text
    ensures imageUrl == ChatFold(ps, b64).imageUrl
  {
    text, imageUrl := None, None;
    var mime := DefaultImageMime;
    for i := 0 to |ps|
      invariant ChatScan(text, imageUrl, mime) == ChatFold(ps[..i], b64)
    {
      assert ps[..i + 1][..i] == ps[..i];
      var part := ps[i];
      if part.text.Some? && part.text.value != "" {
        text := part.text;
      } else if part.inlineData.Some? {
        var blob := part.inlineData.value;
        if blob.mimeType.Some? && blob.mimeType.value != "" {
          mime := blob.mimeType.value;
        }
        var payload: string;
        match blob.data {
          case Some(Bytes(bs)) => payload := b64(bs);
          case Some(Str(s)) => payload := s;
          case _ => continue;
        }
        imageUrl := Some(DataUrl(mime, payload));
      }
    }
    assert ps[..|ps|] == ps;
  }

  /** What multi_turn_image_chat answers once the message has been sent to session `id`. */
  function ChatOutcome(req: ChatRequest, id: string, reply: Reply, b64: Encoder): Status<ChatReply> {
    match reply
    case Raised(msg) => ServerError(Upstream(msg))
    case Returned(r) =>
      match FlatParts(r)
      case NotIterable => ServerError(NoneAccess)
      case NotFound => Ok(ChatReply(None, None, ChatModel(req.model), id))
      case Scan(ps) => Ok(ChatReply(ChatFold(ps, b64).text, ChatFold(ps, b64).imageUrl, ChatModel(req.model), id))
  }

  /** The process-wide table from session id to chat session (`_chat_sessions`). */
  class ImageChatSessions {
    var sessions: map<string, ChatSession>

    /** Every stored session was created with a non-empty model name. */
    ghost predicate Valid()
      reads this
    {
      forall id | id in sessions :: sessions[id].model != ""
    }

    constructor ()
      ensures Valid() && sessions == map[]
    {
      sessions := map[];
    }

    /**
     * multi_turn_image_chat: the session for the request's id (or the fresh
     * id) is created only when absent and reused, never replaced, otherwise;
     * `used` is the session the message went to and `sent` the message with
     * its own per-message config, built again from this request.
     */
    method Chat(req: ChatRequest, freshId: string, reply: Reply, b64: Encoder) returns (res: Status<ChatReply>, used: ChatSession, sent: ChatMessage)
      requires Valid()
      modifies this
      ensures Valid()
      ensures var id := SessionIdFor(req.sessionId, freshId);
        && (id in old(sessions) ==> sessions == old(sessions) && used == old(sessions)[id])
        && (id !in old(sessions) ==> sessions == old(sessions)[id := NewSession(req)] && used == NewSession(req))
        && res == ChatOutcome(req, id, reply, b64)
      ensures res.Ok? ==> res.value.sessionId == SessionIdFor(req.sessionId, freshId)
      ensures SessionIdFor(req.sessionId, freshId) in sessions && sessions[SessionIdFor(req.sessionId, freshId)] == used
      ensures used.model != ""
      ensures sent.text == req.message
      ensures sent.imageConfig.None? <==> !Truthy(req.aspectRatio) && !Truthy(req.resolution)
      ensures sent.imageConfig == ImageConfigFor(req.aspectRatio, req.resolution)
      ensures SessionIdFor(req.sessionId, freshId) !in old(sessions) ==> sent.imageConfig == used.imageConfig
    {
      var id := SessionIdFor(req.sessionId, freshId);
      sent := ChatMessage(req.message, ImageConfigFor(req.aspectRatio, req.resolution));
      if id !in sessions {
        used := NewSession(req);
        sessions := sessions[id := used];
      } else {
        used := sessions[id];
      }
      match reply {
        case Raised(msg) => res := ServerError(Upstream(msg));
        case Returned(r) =>
          match FlatParts(r) {
            case NotIterable => res := ServerError(NoneAccess);
            case NotFound => res := Ok(ChatReply(None, None, ChatModel(req.model), id));
            case Scan(ps) =>
              var text, imageUrl := ScanChatParts(ps, b64);
              res := Ok(ChatReply(text, imageUrl, ChatModel(req.model), id));
          }
      }
    }
  }
}

=== FILE: strings.dfy ===
/**
 * String operations the routers and the frontend rely on: Python's
 * `startswith`/`endswith`/`in`/`join`/`lower`, and JavaScript's `trim`.
 */
module Strings {
  import opened Wrappers

  predicate StartsWith(s: string, prefix: string) {
    |prefix| <= |s| && s[..|prefix|] == prefix
  }

  predicate EndsWith(s: string, suffix: string) {
    |suffix| <= |s| && s[|s| - |suffix|..] == suffix
  }

  /** Python's substring test `t in s`. */
  predicate Contains(s: string, t: string)
    decreases |s|
  {
    StartsWith(s, t) || (s != [] && Contains(s[1..], t))
  }

  /** Python truthiness of an optional string: present and non-empty. */
  predicate Truthy(o: Option<string>) {
    o.Some? && o.value != ""
  }

  /** Python's `sep.join(xs)`. */
  function Join(xs: seq<string>, sep: string): string
  {
    if xs == [] then "" else if |xs| == 1 then xs[0] else xs[0] + sep + Join(xs[1..], sep)
  }

  lemma {:induction false} JoinStartsWithFirst(xs: seq<string>, sep: string)
    requires xs != []
    ensures StartsWith(Join(xs, sep), xs[0])
  {
  }

  // ---------------------------------------------------------------------
  // Lower-casing (ASCII letters only)
  // ---------------------------------------------------------------------

  function LowerChar(c: char): char {
    if 'A' <= c <= 'Z' then (c as int + 32) as char else c
  }

  /** Python's `str.lower()`, restricted to the ASCII letters. */
  function AsciiLower(s: string): (r: string)
    ensures |r| == |s|
  {
    seq(|s|, i requires 0 <= i < |s| => LowerChar(s[i]))
  }

  lemma LowerOfPrefix(s: string, n: nat)
    requires n <= |s|
    ensures AsciiLower(s)[..n] == AsciiLower(s[..n])
    ensures AsciiLower(s)[n..] == AsciiLower(s[n..])
  {
  }

  lemma {:induction false} LowerKeepsStartsWith(s: string, t: string)
    requires StartsWith(s, t)
    ensures StartsWith(AsciiLower(s), AsciiLower(t))
  {
    LowerOfPrefix(s, |t|);
  }

  /** A substring of `s` lower-cases to a substring of `s.lower()`. */
  lemma {:induction false} LowerKeepsContains(s: string, t: string)
    requires Contains(s, t)
    ensures Contains(AsciiLower(s), AsciiLower(t))
    decreases |s|
  {
    if StartsWith(s, t) {
      LowerKeepsStartsWith(s, t);
    } else {
      LowerKeepsContains(s[1..], t);
      LowerOfPrefix(s, 1);
    }
  }

  // ---------------------------------------------------------------------
  // JavaScript String.prototype.trim
  // ---------------------------------------------------------------------

  /** The WhiteSpace and LineTerminator code points that JavaScript's `trim` removes. */
  predicate IsJsWhitespace(c: char) {
    c in {'\t', '\n', '\U{000B}', '\U{000C}', '\r', ' ', '\U{00A0}', '\U{1680}',
          '\U{2000}', '\U{2001}', '\U{2002}', '\U{2003}', '\U{2004}', '\U{2005}',
          '\U{2006}', '\U{2007}', '\U{2008}', '\U{2009}', '\U{200A}',
          '\U{2028}', '\U{2029}', '\U{202F}', '\U{205F}', '\U{3000}', '\U{FEFF}'}
  }

  /** Every character is whitespace (the empty string included). */
  predicate IsBlank(s: string) {
    forall i | 0 <= i < |s| :: IsJsWhitespace(s[i])
  }

  /** `s` without its leading whitespace: what remains starts with a non-whitespace character. */
  function TrimStart(s: string): (r: string)
    ensures r == [] || !IsJsWhitespace(r[0])
    ensures |r| <= |s| && r == s[|s| - |r|..]
  {
    if s != [] && IsJsWhitespace(s[0]) then TrimStart(s[1..]) else s
  }

  /** `s` without its trailing whitespace: what remains ends with a non-whitespace character. */
  function TrimEnd(s: string): (r: string)
    ensures r == [] || !IsJsWhitespace(r[|r| - 1])
    ensures |r| <= |s| && r == s[..|r|]
  {
    if s != [] && IsJsWhitespace(s[|s| - 1]) then TrimEnd(s[..|s| - 1]) else s
  }

  /** JavaScript's `s.trim()`. */
  function Trim(s: string): string {
    TrimEnd(TrimStart(s))
  }

  /** A non-empty string is blank when its first character is whitespace and the rest is blank. */
  lemma BlankFront(s: string)
    requires s != []
    ensures IsBlank(s) <==> IsJsWhitespace(s[0]) && IsBlank(s[1..])
  {
    if IsJsWhitespace(s[0]) && IsBlank(s[1..]) {
      forall i | 0 <= i < |s| ensures IsJsWhitespace(s[i]) {
        if i > 0 { assert s[i] == s[1..][i - 1]; }
      }
    }
  }

  /** A non-empty string is blank when its last character is whitespace and the rest is blank. */
  lemma BlankBack(s: string)
    requires s != []
    ensures IsBlank(s) <==> IsJsWhitespace(s[|s| - 1]) && IsBlank(s[..|s| - 1])
  {
    if IsJsWhitespace(s[|s| - 1]) && IsBlank(s[..|s| - 1]) {
      forall i | 0 <= i < |s| ensures IsJsWhitespace(s[i]) {
        if i < |s| - 1 { assert s[i] == s[..|s| - 1][i]; }
      }
    }
  }

  lemma {:induction false} TrimStartEmptyIffBlank(s: string)
    ensures TrimStart(s) == "" <==> IsBlank(s)
  {
    if s != [] {
      BlankFront(s);
      if IsJsWhitespace(s[0]) {
        TrimStartEmptyIffBlank(s[1..]);
      }
    }
  }

  lemma {:induction false} TrimEndEmptyIffBlank(s: string)
    ensures TrimEnd(s) == "" <==> IsBlank(s)
  {
    if s != [] {
      BlankBack(s);
      if IsJsWhitespace(s[|s| - 1]) {
        TrimEndEmptyIffBlank(s[..|s| - 1]);
      }
    }
  }

  /** Trimming leaves a blank string empty and any other string non-empty. */
  lemma {:induction false} TrimEmptyIffBlank(s: string)
    ensures Trim(s) == "" <==> IsBlank(s)
  {
    TrimStartEmptyIffBlank(s);
    TrimEndEmptyIffBlank(TrimStart(s));
    if TrimStart(s) != "" {
      assert !IsBlank(TrimStart(s)) by { assert !IsJsWhitespace(TrimStart(s)[0]); }
    }
  }
}

=== FILE: text.dfy ===
/**
 * The text router: the optional generation config of generate_text, and the
 * conversion of a chat history into the SDK's role-tagged contents.
 */
module TextRouter {
  import opened Wrappers
  import opened Genai
  import opened Http

  const DefaultTemperature: real := 0.7

  /** A config entry's value; a temperature may be JSON null. */
  datatype ConfigValue = Temperature(t: Option<real>) | MaxOutputTokens(n: int)

  type Config = map<string, ConfigValue>

  datatype TextRequest = TextRequest(prompt: string, model: Option<string>, temperature: Option<real>, maxTokens: Option<int>)

  /** The reply of both endpoints: a text and the model echoed back. */
  datatype TextReply = TextReply(text: string, model: string)

  /** The request model's default for the temperature; with it the key is always sent. */
  function DefaultTextRequest(prompt: string, model: Option<string>): TextRequest {
    TextRequest(prompt, model, Some(DefaultTemperature), None)
  }

  /**
   * generate_text's config: "temperature" exactly when a temperature is
   * given, "max_output_tokens" exactly when a token limit is given, and no
   * config at all (None) when the table would be empty.
   */
  method GenerateTextConfig(temperature: Option<real>, maxTokens: Option<int>) returns (config: Option<Config>)
    ensures config.None? <==> temperature.None? && maxTokens.None?
    ensures config.Some? ==> ("temperature" in config.value <==> temperature.Some?)
    ensures config.Some? ==> ("max_output_tokens" in config.value <==> maxTokens.Some?)
    ensures config.Some? && temperature.Some? ==> config.value["temperature"] == Temperature(temperature)
    ensures config.Some? && maxTokens.Some? ==> config.value["max_output_tokens"] == MaxOutputTokens(maxTokens.value)
    ensures config.Some? ==> forall k | k in config.value :: k == "temperature" || k == "max_output_tokens"
  {
    var table: Config := map[];
    if temperature.Some? {
      table := table["temperature" := Temperature(temperature)];
    }
    if maxTokens.Some? {
      table := table["max_output_tokens" := MaxOutputTokens(maxTokens.value)];
    }
    assert temperature.Some? ==> "temperature" in table;
    assert maxTokens.Some? ==> "max_output_tokens" in table;
    config := if table != map[] then Some(table) else None;
  }

  /** With the default temperature the config is always sent, with its temperature. */
  method DefaultConfigIsSent(prompt: string, model: Option<string>) returns (config: Option<Config>)
    ensures config.Some? && "temperature" in config.value && config.value["temperature"] == Temperature(Some(DefaultTemperature))
  {
    var req := DefaultTextRequest(prompt, model);
    config := GenerateTextConfig(req.temperature, req.maxTokens);
  }

  /** What both endpoints answer once the SDK has replied: the reply model refuses a None text or model. */
  function TextOutcome(model: Option<string>, reply: Reply): (r: Status<TextReply>)
    ensures reply.Raised? ==> r == ServerError(Upstream(reply.message))
    ensures r.Ok? <==> reply.Returned? && reply.response.text.Some? && model.Some?
    ensures r.Ok? ==> r.value == TextReply(reply.response.text.value, model.value)
  {
    match reply
    case Raised(msg) => ServerError(Upstream(msg))
    case Returned(r) =>
      if r.text.None? || model.None? then ServerError(InvalidReplyField)
      else Ok(TextReply(r.text.value, model.value))
  }

  // ---------------------------------------------------------------------
  // Chat history
  // ---------------------------------------------------------------------

  datatype ChatMessage = ChatMessage(role: string, content: string)

  /** `{"role": ..., "parts": [...]}`. */
  datatype ChatContent = ChatContent(role: string, parts: seq<RequestPart>)

  /** The SDK role of a history role: "user" stays, "assistant" is "model", others have none. */
  function SdkRole(role: string): (r: Option<string>)
    ensures r.Some? <==> role == "user" || role == "assistant"
    ensures role == "user" ==> r == Some("user")
    ensures role == "assistant" ==> r == Some("model")
  {
    if role == "user" then Some("user")
    else if role == "assistant" then Some("model")
    else None
  }

  /** The contents converted from a history, in order. */
  function Converted(msgs: seq<ChatMessage>): seq<ChatContent> {
    if msgs == [] then []
    else
      var m := msgs[|msgs| - 1];
      var role := SdkRole(m.role);
      Converted(msgs[..|msgs| - 1]) + (if role.Some? then [ChatContent(role.value, [TextPart(m.content)])] else [])
  }

  /** The messages kept, in order: those from the user or the assistant. */
  function Kept(msgs: seq<ChatMessage>): (kept: seq<ChatMessage>)
    ensures forall i | 0 <= i < |kept| :: kept[i].role == "user" || kept[i].role == "assistant"
  {
    if msgs == [] then []
    else if msgs[0].role == "user" || msgs[0].role == "assistant" then [msgs[0]] + Kept(msgs[1..])
    else Kept(msgs[1..])
  }

  lemma {:induction false} ConvertedAppend(a: seq<ChatMessage>, b: seq<ChatMessage>)
    ensures Converted(a + b) == Converted(a) + Converted(b)
    decreases |b|
  {
    if b == [] {
      assert a + b == a;
    } else {
      var init := b[..|b| - 1];
      assert (a + b)[..|a + b| - 1] == a + init;
      assert (a + b)[|a + b| - 1] == b[|b| - 1];
      ConvertedAppend(a, init);
    }
  }

  /**
   * The conversion keeps exactly the user and assistant messages, in order,
   * each as one content with the mapped role and a single text part holding
   * the message verbatim.
   */
  lemma {:induction false} ConvertedIsKeptMessages(msgs: seq<ChatMessage>)
    ensures |Converted(msgs)| == |Kept(msgs)|
    ensures forall i | 0 <= i < |Kept(msgs)| ::
      Converted(msgs)[i] == ChatContent(SdkRole(Kept(msgs)[i].role).value, [TextPart(Kept(msgs)[i].content)])
  {
    if msgs != [] {
      var m, rest := msgs[0], msgs[1..];
      ConvertedIsKeptMessages(rest);
      ConvertedAppend([m], rest);
      assert [m] + rest == msgs;
      ConvertedSingle(m);
      if m.role == "user" || m.role == "assistant" {
        assert Kept(msgs) == [m] + Kept(rest);
        assert Converted(msgs) == [ChatContent(SdkRole(m.role).value, [TextPart(m.content)])] + Converted(rest);
        forall i | 0 < i < |Kept(msgs)|
          ensures Converted(msgs)[i] == ChatContent(SdkRole(Kept(msgs)[i].role).value, [TextPart(Kept(msgs)[i].content)])
        {
          assert Kept(msgs)[i] == Kept(rest)[i - 1];
          assert Converted(msgs)[i] == Converted(rest)[i - 1];
        }
      } else {
        assert Kept(msgs) == Kept(rest);
        assert Converted(msgs) == Converted(rest);
      }
    }
  }

  /** A single message converts to one content when it is kept and to none otherwise. */
  lemma ConvertedSingle(m: ChatMessage)
    ensures Converted([m]) == if SdkRole(m.role).Some? then [ChatContent(SdkRole(m.role).value, [TextPart(m.content)])] else []
  {
    assert [m][..0] == [];
  }

  /** A system message is dropped. */
  lemma SystemMessageDropped()
    ensures Converted([ChatMessage("system", "be brief"), ChatMessage("assistant", "ok")])
      == [ChatContent("model", [TextPart("ok")])]
  {
    var msgs := [ChatMessage("system", "be brief"), ChatMessage("assistant", "ok")];
    assert msgs[..1] == [msgs[0]];
    assert msgs[..1][..0] == [];
  }

  /** The loop over `request.messages`. */
  method ChatContents(msgs: seq<ChatMessage>) returns (contents: seq<ChatContent>)
    ensures contents == Converted(msgs)
  {
    contents := [];
    for i := 0 to |msgs|
      invariant contents == Converted(msgs[..i])
    {
      assert msgs[..i + 1][..i] == msgs[..i];
      var msg := msgs[i];
      if msg.role == "user" {
        contents := contents + [ChatContent("user", [TextPart(msg.content)])];
      } else if msg.role == "assistant" {
        contents := contents + [ChatContent("model", [TextPart(msg.content)])];
      }
    }
    assert msgs[..|msgs|] == msgs;
  }

  /** The chat's config: always the temperature, even when it is null. */
  function ChatConfig(temperature: Option<real>): (c: Config)
    ensures c.Keys == {"temperature"} && c["temperature"] == Temperature(temperature)
  {
    map["temperature" := Temperature(temperature)]
  }
}

=== FILE: wrappers.dfy ===
/** Small stock datatypes shared by the whole model. */
module Wrappers {

  /** A value that may be missing; for the routers, Python's `None`. */
  datatype Option<+T> = None | Some(value: T)

  /**
   * An attribute of a Python object as the routers probe it: `hasattr` is
   * false (Absent), the attribute exists but holds `None` (Null), or it holds
   * a value (Has). Used only where the source treats these three differently.
   */
  datatype Attr<+T> = Absent | Null | Has(value: T)
}
